=== FILE: README.md ===
# Portfolio page widgets, modelled in Dafny

This project models the decision rules inside the event handlers of a static portfolio site's two
scripts, `js/main.js` and `js/animation.js`. The DOM is reduced to immutable records: class lists are sets of
strings, the inline `style.display` is a `Display` value, and the page is a sequence of elements. Every
handler is a pure step function from one such state to the next. Intersection, click, resize and timer
events are abstract inputs.

Modules, one per widget:

- `Dom` (dom.dfy): `Option`, the class names several widgets share, and `classList.toggle` / remove-then-add.
  It also holds inline display values, with the stylesheet's default deciding when no inline value is set.
- `Observe` (observe.dfy): IntersectionObserver entries and batches. The observer queues entries only for
  targets it watches. It hands the whole queue to the callback, and `unobserve` inside the callback does
  not drop the rest of that batch.
- `Reveal` (reveal.dfy): `initAnimations` of `js/main.js`. It covers the reveal-once `active` observer,
  the marking of section elements, and the section observer, which never unwatches.
- `Stagger` (stagger.dfy): `initAnimations` of `js/animation.js`. It covers the reveal-once `visible`
  observer, the 100 ms stagger of grid children, and the registration of project-section elements.
- `Counter` (counter.dfy): the digit-strip parse of a counter's target, the decimal text of a number, and
  the `animateCounter` ramp of 75 ticks of 20 ms. It proves the exact closed form of the eased value and
  its floor relation to the source's formula.
- `StatCounters` (stat_counters.dfy): `initStatCounters`. `data-original` is recorded once, and an
  animation starts as soon as the counter is seen.
- `Carousel` (carousel.dfy): `initTestimonialSlider`, including the TypeError paths of `showTestimonial`.
- `Filter` (filter.dfy): `initPortfolioFilter`. It models the state right after a click and the settled
  state once that click's timers have fired.
- `FormCheck` (form_check.dfy): the required-field submit validator, with the exact white-space set of
  `String.prototype.trim`.
- `Menu` (menu.dfy): `initMobileMenu`, covering the toggle, the outside click, the resize handler and the
  dropdown chevrons.
- `Blog` (blog.dfy): the blog expand and collapse handlers.

Two facts about the stat counters that the model makes explicit:

- A batch holding a second intersecting entry for a counter starts a second animation, to the same target
  (`StatCounters.RepeatInOneBatchStartsTwice`).
- The target is parsed again at every intersection, from the text stored in `data-original` the first time,
  or from the value the markup already carried there.

## Model

| member | source | states |
|---|---|---|
| Counter.DigitsOnly | js/animation.js:85 | deleting non-digits leaves only the characters 0-9 and never lengthens the text |
| Counter.DigitsOnlyAppend | js/animation.js:85 | deleting non-digits works piecewise: the digits of a concatenation are the concatenated digits |
| Counter.DigitsOnlyKeepsDigits | js/animation.js:85 | a text of digits only is left as it is |
| Counter.ParseTarget | js/animation.js:85 | the target is the value of the text's digits once non-digits are deleted, 0 when there are none; a text of digits only reads as its own value |
| Counter.NonDigitIgnored | js/animation.js:85 | inserting a non-digit character anywhere in the text does not change the parsed target |
| Counter.ValueOfNatText | js/animation.js:85 | the digits of a number's decimal text read back as that number |
| Counter.ParseTargetOfText | js/animation.js:85 | parsing the decimal text of any non-negative number gives that number back |
| Counter.NatText | js/animation.js:128 | the text of a number is one or more decimal digits with no leading zero |
| Counter.Eased | js/animation.js:123-127 | the integer value shown at tick s; tick 0, or a ramp whose start equals its end, shows start |
| Counter.EasedIsFloor | js/animation.js:123-127 | the integer value of tick s is the floor of start + (end - start) * (1 - (1 - s/75)^2) computed exactly |
| Counter.EasedMonotone | js/animation.js:123-127 | for start <= end the eased value never decreases from one tick to a later one |
| Counter.EasedBounded | js/animation.js:123-127 | for start <= end every tick's value lies between start and end |
| Counter.EasedEnds | js/animation.js:123-133 | tick 0 gives start, and tick 75 already gives end exactly, so the final snap changes nothing |
| Counter.TickValue | js/animation.js:127-133 | the value shown after tick s: end from tick 75 on, and for start <= end always within [start, end] |
| Counter.Animate | js/animation.js:104-135 | end <= 0 shows "0" at once with no ticks; otherwise exactly 75 ticks, tick s showing the eased value, the last exactly end, non-decreasing and within [start, end] for start <= end |
| Counter.CallSiteRamp | js/animation.js:88 | with start 0 each tick shows the floor of the real eased value end * (1 - (1 - s/75)^2), which stays in [0, end], is 0 at step 0 and end at step 75 |
| StatCounters.Initial | js/animation.js:96-98 | after setup every counter is watched with its markup text and markup `data-original`, and nothing started |
| StatCounters.OnEntry | js/animation.js:77-92 | an intersecting entry unwatches its counter, keeps or records `data-original`, and starts one animation to the target parsed from it; other counters and out-of-view entries change nothing |
| StatCounters.CallbackEffect | js/animation.js:76-92 | over one batch a counter starts one animation per intersecting entry, is unwatched iff it had one, keeps a recorded data-original, records its current text otherwise, and every animation runs to the target parsed from the recorded text |
| StatCounters.DeliverKeepsSettled | js/animation.js:80-91 | one delivery with at most one intersecting entry for a counter keeps it at no more than one started animation, to the target parsed from the markup's `data-original` or else its first text |
| StatCounters.RunKeepsSettled | js/animation.js:80-91 | the same for any sequence of such deliveries |
| StatCounters.AtMostOneStart | js/animation.js:80-91 | from the page setup leaves, a counter starts at most one animation; data-original keeps the markup's value or else holds the text at first intersection, and the animation targets the value parsed from it |
| StatCounters.RepeatInOneBatchStartsTwice | js/animation.js:76-92 | a batch holding in-view, out-of-view, in-view entries for one counter starts two animations, both to the same target |
| Reveal.Initial | js/main.js:43-60 | exactly the elements with an animate-fade-in, animate-slide-up or animate-slide-in-right class are watched |
| Reveal.OnEntry | js/main.js:48-53 | an intersecting entry adds active to its element and unwatches it; no other element changes, and an out-of-view entry changes nothing |
| Reveal.BatchEffect | js/main.js:46-55 | over one batch an element gains active and is unwatched exactly when the batch has an intersecting entry for it |
| Reveal.FirstHit | js/main.js:47-53 | the first delivery with an intersecting entry for a watched element adds active and unwatches it; one without leaves it untouched and watched |
| Reveal.RevealedStays | js/main.js:49-53 | once unwatched, no later delivery changes the element's classes or watches it again |
| Reveal.RevealAtMostOnce | js/main.js:46-55 | over any run a watched element is either still watched and untouched, or unwatched with exactly active added |
| Reveal.MarkSection | js/main.js:63-71 | each marked section element gains animate-on-scroll and a delay 100 ms per position, starting at 0, in document order |
| Reveal.SectionHit | js/main.js:74-83 | an intersecting section makes visible exactly its animate-on-scroll descendants and changes nothing else |
| Reveal.SectionHitsLikeOne | js/main.js:74-83 | the section observer never unwatches, and any number of intersections leaves the same state as one |
| Stagger.AddVisible | js/animation.js:25 | adds visible to one node and leaves every other node as it was |
| Stagger.Schedule | js/animation.js:30-35 | one timer per grid child, the i-th for the i-th child |
| Stagger.StaggerOrder | js/animation.js:30-35 | the first child is revealed at once, each next 100 ms after the previous, so delays are non-decreasing in document order |
| Stagger.FireAll | js/animation.js:32-34 | firing the timers only adds classes: no node loses a class or changes its children |
| Stagger.FireAllEffect | js/animation.js:32-34 | once the timers fire, a node is visible iff it was or some timer targeted it, and nothing else about it changes |
| Stagger.OnEntry | js/animation.js:22-40 | an intersecting entry makes its node visible and unwatches it, and for a grid appends one staggered timer per child after the pending ones; a hit on any other node schedules nothing, and no other node changes |
| Stagger.BatchEffect | js/animation.js:22-40 | over one batch a node only gains visible, is unwatched iff hit, and a hit on a grid schedules a reveal for each of its children |
| Stagger.BatchTimersFromGrids | js/animation.js:26-36 | every timer a batch appends reveals a child of a grid container the batch reports intersecting |
| Stagger.GridRevealsChildren | js/animation.js:24-39 | a watched grid that intersects becomes visible, is unwatched, and after its timers every child is visible |
| Stagger.RevealedStays | js/animation.js:38-39 | once unwatched, no later delivery changes the node or watches it again |
| Stagger.Register | js/animation.js:47-63 | the observed elements are those with animate-on-scroll or a project-section class, none observed twice, and the project ones gain animate-on-scroll |
| Carousel.Init | js/main.js:343-350 | setup hides every item but the first and starts at index 0 |
| Carousel.Show | js/main.js:353-374 | the index becomes the shown one unless the handler throws part way, which leaves the index as it was |
| Carousel.ShowSelects | js/main.js:353-374 | with as many dots as items, showing k displays exactly item k, activates exactly dot k, sets the index to k and keeps other dot classes |
| Carousel.Prev | js/main.js:384-388 | previous either throws and keeps the index, or leaves it within the items, one back from any index but the first (the wrap is `Carousel.PrevIndex`) |
| Carousel.Next | js/main.js:391-402 | next, and the auto-advance tick, either throw and keep the index, or leave it within the items, one forward from any index but the last (the wrap is `Carousel.NextIndex`) |
| Carousel.Step | js/main.js:376-402 | any dot click, previous, next or auto tick either throws and keeps the index, or leaves it within the items |
| Carousel.NextIndex | js/main.js:391-402 | next, and the auto-advance tick, move the index to (i + 1) mod n without throwing |
| Carousel.PrevIndex | js/main.js:384-388 | previous moves the index to (i - 1 + n) mod n without throwing |
| Carousel.PrevAfterNext | js/main.js:384-395 | previous after next returns to the same index with the same item shown and dot active |
| Carousel.StepKeepsWellFormed | js/main.js:376-402 | every dot click, previous, next and auto tick keeps the index in [0, n) and never throws |
| Carousel.RunKeepsWellFormed | js/main.js:376-402 | the same over any sequence of events |
| Carousel.EmptySliderThrows | js/main.js:384-395 | with no testimonials every previous, next and auto tick throws and keeps the index |
| Filter.Includes | js/main.js:434 | `includes`: it finds only texts no longer than the category, and always finds a prefix of it |
| Filter.IncludesIff | js/main.js:434 | the substring search succeeds exactly when the filter text occurs at some position of the category |
| Filter.ActivateOnly | js/main.js:415-420 | after a click exactly the clicked button carries active and no button loses any other class |
| Filter.ItemNow | js/main.js:427-446 | one item right after the click: kept items are displayed as blocks, dropped ones faded; it throws exactly when the filter is not all and the item has no data-category |
| Filter.ItemLater | js/main.js:429-445 | one item once its timer fires: kept items are unfaded, dropped ones hidden |
| Filter.FilterNow | js/main.js:426-448 | the loop applies each item's immediate effect in order and stops at the first item that throws, leaving it and the rest untouched |
| Filter.Click | js/main.js:413-449 | a click makes exactly the clicked button active and never changes an item's category |
| Filter.ClickThrows | js/main.js:423-434 | the handler throws exactly when the filter is not all and some item has no data-category |
| Filter.SettledShowsKept | js/main.js:426-448 | once the timers have fired, an item is displayed iff the filter is all or its category contains the filter, and hidden otherwise |
| Filter.ImmediateEffect | js/main.js:426-446 | right after the click kept items are displayed, and dropped ones are faded but not yet hidden |
| FormCheck.TrimStart | js/main.js:516 | strips exactly the leading white space |
| FormCheck.TrimEnd | js/main.js:516 | strips exactly the trailing white space |
| FormCheck.Trim | js/main.js:516 | `trim`: never longer than the value, and neither starts nor ends with white space |
| FormCheck.BlankIffAllSpace | js/main.js:516 | a value is blank after trimming iff every character of it is white space |
| FormCheck.TrimIsInnerPiece | js/main.js:516 | the trimmed value is a contiguous piece of the value with no white space at either end |
| FormCheck.CheckRow | js/main.js:515-536 | one required field: its value kept, error present iff blank, a message right after it when blank, and none when filled on a page without double messages |
| FormCheck.CheckRowMarks | js/main.js:515-536 | a field gains error iff blank, and its value and other classes are untouched |
| FormCheck.ValidateIff | js/main.js:512-517 | the `valid` flag, cleared field by field, ends true iff it started true and no required field is blank |
| FormCheck.Submit | js/main.js:511-541 | a submit keeps every value, and when it is not prevented no field carries error |
| FormCheck.SubmitPreventedIff | js/main.js:512-540 | `preventDefault` runs iff some required field is blank |
| FormCheck.SubmitMarksFields | js/main.js:511-541 | submission is prevented iff some required field is blank; blank fields end with error and filled ones without |
| FormCheck.CheckRowMessages | js/main.js:516-535 | on a row not already followed by two error-messages, a blank field ends followed by exactly one (an existing one is reused) and a filled one by none (an existing one is removed), with the later siblings untouched |
| FormCheck.SubmitMessages | js/main.js:516-535 | the same for every field of a submit, with the page again free of double messages |
| FormCheck.CheckRowIdempotent | js/main.js:515-536 | on a row without double messages, checking a field a second time changes nothing |
| FormCheck.SubmitRowsIdempotent | js/main.js:514-536 | on a page without double messages, a second submit leaves every field and its siblings as the first left them |
| FormCheck.SubmitIdempotent | js/main.js:511-541 | on a page where no field is followed by two error-messages, a second submit changes nothing, so repeated submits never add a second message |
| Menu.Init | js/main.js:237-246 | every dropdown captures its own chevron span, attached to the link only below 992 px |
| Menu.ToggleClick | js/main.js:220-233 | a toggle click flips show on the nav and active on the button, and swaps fa-bars and fa-times; their other classes, the dropdowns and the width are untouched |
| Menu.ToggleTwice | js/main.js:220-233 | two toggle clicks restore the menu when the icon shows one of its two glyphs |
| Menu.DocumentClick | js/main.js:266-274 | the document click handler: a click outside the nav and toggle leaves the nav closed, a closed menu is left as it is, and only show, active, fa-times and fa-bars can change |
| Menu.OutsideClickCloses | js/main.js:266-274 | an outside click on an open menu closes it with the fa-bars icon; any other click changes nothing |
| Menu.AttachMissing | js/main.js:283-290 | a narrow resize gives each dropdown without a chevron a freshly created one and keeps existing ones |
| Menu.DetachAll | js/main.js:280-281 | a wide resize removes every chevron |
| Menu.StepKeepsSynced | js/main.js:213-294 | with the corrected resize and link handlers, each event keeps the nav, the toggle button and its icon agreeing on whether the menu is open |
| Menu.RunKeepsSynced | js/main.js:213-294 | with the corrected resize and link handlers, the same over any sequence of events |
| Menu.StepAsWrittenKeepsSynced | js/main.js:213-294 | with the handlers as written, every toggle, document, dropdown-link and resize event keeps the menu in sync, except a resize to 992 px or wider while the menu is open |
| Menu.RunAsWrittenKeepsSynced | js/main.js:213-294 | with the handlers as written, any sequence of toggle, document, dropdown-link and resize events without a resize to 992 px or wider keeps the menu in sync |
| Menu.ResizeAsWritten | js/main.js:277-293 | the resize handler as written: a wide window loses show and every chevron while the toggle and its icon are left as they were; a narrow one gets every chevron attached |
| Menu.ResizeLeavesCloseIcon | js/main.js:277-279 | the resize handler as written closes the nav but leaves the fa-times icon and the active toggle |
| Menu.Resize | js/main.js:277-279 | the corrected wide resize closes the nav and the toggle and keeps the menu in sync |
| Menu.LinkClickAsWritten | js/main.js:249-262 | the link click handler as written: on a narrow page it flips the dropdown and turns the span it captured at setup, whether or not that span is still attached; on a wide page it does nothing |
| Menu.ReplacedChevronNeverTurns | js/main.js:249-262 | as written, after a resize has replaced a dropdown's chevron, a click opens the dropdown but the visible chevron stays unturned |
| Menu.LinkClick | js/main.js:249-262 | the corrected link click turns the visible chevron exactly when the dropdown is open |
| Menu.LinkClickTurnsVisibleChevron | js/main.js:249-262 | with the corrected link handler, on a narrow page a dropdown link click flips the dropdown and its visible chevron shows the new state |
| Blog.Expand | js/main.js:737-763 | whatever the stylesheet says, expanding shows the full content and the collapse button, hides the expand button and marks the card and featured post expanded |
| Blog.Collapse | js/main.js:777-803 | whatever the stylesheet says, collapsing hides the full content and the collapse button, shows the expand button and removes expanded |
| Blog.ExpandThenCollapse | js/main.js:737-805 | expand then collapse on a collapsed post, hidden by inline styles or by the stylesheet, restores what the reader sees and the card's classes |
| Blog.SheetHiddenRoundTrip | js/main.js:737-805 | a post whose full content and collapse button only the stylesheet hides is collapsed, and after expand then collapse, now with inline styles set, it looks the same |
| Blog.HandlersForgetHistory | js/main.js:737-805 | collapsing after an expand equals collapsing directly, and likewise for expanding |

## Left out

- Cursor particles (js/main.js:126-208) are left out. They are decoration driven by `Math.random`, floating point and animation frames.
- The lightboxes (js/main.js:456-504, js/animation.js:193-328) are left out because they only mutate the DOM and styles.
- Smooth scrolling, the preloader, the header and back-to-top scroll handlers, the hero image, the hover effects and the injected CSS strings are left out because they only change styles or scroll the page.
- IntersectionObserver geometry (threshold, rootMargin) is reduced to the entry's `isIntersecting` flag.
- IEEE doubles are not modelled. That covers `Math.pow` and `Math.floor` rounding, `parseInt` losing precision above 2^53 or giving Infinity for very long digit strings, and the `${index * 0.1}s` delay text. The model uses exact integers.
- Timer interleavings in the portfolio filter are not modelled. A 300 ms hide from an earlier click can land after a later click. Only the state right after a click and the settled state are modelled.
- Timer firing order in `Stagger.FireAll` is not modelled: all pending reveals fire together. Adding a class commutes, and the delays are stated by `Stagger.StaggerOrder`.
- The counter's text between ticks is not tracked in `StatCounters`: a stepped animation's writes happen after the callback returns, and their values are given by `Counter.Animate`.
- StatCounters.AtMostOneStart: holds only when no batch carries two intersecting entries for one counter. `StatCounters.RepeatInOneBatchStartsTwice` shows the other case.
- Some elements are assumed present. Where one is missing, `querySelector` returns null and the source throws at setup or part way through a handler. Those paths are not modelled. The elements are:
  - the slider's previous and next buttons;
  - the menu toggle and its icon;
  - the `.nav-menu` (js/main.js:221, 267);
  - each dropdown's link;
  - a blog button's enclosing `.blog-content` or `.featured-content`, its `.blog-full-content` and the other button (js/main.js:746-747, 751, 786-787, 791).
- Testimonial items with no inline `display` are taken to be displayed by the stylesheet (`Carousel.ItemSheetShows`). The handlers set every display explicitly from the first click on, so this affects only the first item before any event.
- Menu.RunAsWrittenKeepsSynced: covers only the toggle, document, dropdown-link and resize events. The smooth-scroll anchor handler (js/main.js:106-111) also closes the mobile menu, removing show and active but leaving fa-times on the icon. That is a second way out of sync on the page. It is not modelled, because smooth scrolling is outside this model.
- The blog handlers' scroll to the card is not modelled, nor the TypeError it raises when a post has neither card nor featured wrapper (after the class changes), nor `stopPropagation`.
- Required fields are modelled with the element siblings that follow each one, up to the next required field or the end of its parent. Text nodes play no part, because the handler reads `nextElementSibling`.
- The form validator is attached when js/main.js runs (js/main.js:508-509), not on `DOMContentLoaded`, so only forms already parsed at that point get it. The model treats every form as having the handler.
- The testimonial auto-advance is modelled as an `AutoTick` event that does what the next button does. Its 5-second `setInterval` period (js/main.js:398-402) is not, because the model has no clock.
- Both scripts define `initAnimations` and `initSmoothScrolling`, and on a page that loads both the later definition wins. Each file's functions are modelled on their own.

## Findings

| source | as written | input that shows it | evidently intended | confidence | as-written member | corrected member |
|---|---|---|---|---|---|---|
| js/main.js:277-279 | a resize to 992 px or wider removes `show` from the nav only | open the menu at width 800, resize to 1200, then back to 800: the menu is closed but the toggle is still active and shows fa-times; the next toggle click opens it with fa-bars | closing the menu on resize also resets the toggle and icon, as the outside-click handler does | medium, not executed | Menu.ResizeLeavesCloseIcon | Menu.Resize |
| js/main.js:249-262 | the link click handler turns the chevron span created at setup, which the resize handler later removes and replaces | load at width 800, resize to 1200 and back to 800, click dropdown 0's link: the dropdown opens but its visible chevron does not turn (a page loaded at 1200 or wider never attaches that span at all) | the click turns the chevron attached to the link | medium, not executed | Menu.ReplacedChevronNeverTurns | Menu.LinkClick |

=== FILE: blog.dfy ===
/**
  The blog expand and collapse buttons (js/main.js:731-806): expanding shows a post's full content and the
  collapse button and marks its card expanded; collapsing undoes it.
*/
module Blog {
  import opened Dom

  const Expanded := "expanded"

  /**
    Whether the stylesheet displays each of a post's three parts when it has no inline `display`. The
    handlers set `block` and `inline-block` explicitly, which suggests a sheet that hides the full content
    and the collapse button.
  */
  datatype Sheet = Sheet(full: bool, expand: bool, collapse: bool)

  /**
    One post: the stylesheet's defaults, the inline display of its `.blog-full-content`, of its expand
    button and of its collapse button, and the classes of the enclosing `.blog-card` and `.featured-post`,
    `None` where there is none.
  */
  datatype Post = Post(sheet: Sheet, full: Display, expand: Display, collapse: Display,
                       card: Option<set<string>>, featured: Option<set<string>>)

  predicate FullShown(p: Post) { Shown(p.full, p.sheet.full) }
  predicate ExpandShown(p: Post) { Shown(p.expand, p.sheet.expand) }
  predicate CollapseShown(p: Post) { Shown(p.collapse, p.sheet.collapse) }

  function AddTo(cs: Option<set<string>>, c: string): Option<set<string>> {
    if cs.Some? then Some(cs.value + {c}) else None
  }

  function RemoveFrom(cs: Option<set<string>>, c: string): Option<set<string>> {
    if cs.Some? then Some(cs.value - {c}) else None
  }

  /** The expand button's handler (main.js:738-772); the scrolling that follows is not modelled. */
  function Expand(p: Post): (r: Post)
    ensures r.sheet == p.sheet
    ensures FullShown(r) && !ExpandShown(r) && CollapseShown(r)
    ensures r.card.Some? == p.card.Some? && r.featured.Some? == p.featured.Some?
    ensures r.card.Some? ==> Expanded in r.card.value && r.card.value - {Expanded} == p.card.value - {Expanded}
    ensures r.featured.Some? ==> Expanded in r.featured.value && r.featured.value - {Expanded} == p.featured.value - {Expanded}
  {
    Post(p.sheet, DisplayBlock, DisplayNone, DisplayInlineBlock, AddTo(p.card, Expanded), AddTo(p.featured, Expanded))
  }

  /** The collapse button's handler (main.js:778-804). */
  function Collapse(p: Post): (r: Post)
    ensures r.sheet == p.sheet
    ensures !FullShown(r) && ExpandShown(r) && !CollapseShown(r)
    ensures r.card.Some? == p.card.Some? && r.featured.Some? == p.featured.Some?
    ensures r.card.Some? ==> Expanded !in r.card.value && r.card.value - {Expanded} == p.card.value - {Expanded}
    ensures r.featured.Some? ==> Expanded !in r.featured.value && r.featured.value - {Expanded} == p.featured.value - {Expanded}
  {
    Post(p.sheet, DisplayNone, DisplayInlineBlock, DisplayNone, RemoveFrom(p.card, Expanded), RemoveFrom(p.featured, Expanded))
  }

  /**
    A post as the page first shows it: full content and collapse button hidden, nothing expanded, whether
    inline styles or the stylesheet hide them.
  */
  predicate Collapsed(p: Post) {
    && !FullShown(p) && ExpandShown(p) && !CollapseShown(p)
    && (p.card.Some? ==> Expanded !in p.card.value)
    && (p.featured.Some? ==> Expanded !in p.featured.value)
  }

  /** What a reader sees: which of the three parts are shown, and the enclosing elements' classes. */
  function View(p: Post): (bool, bool, bool, Option<set<string>>, Option<set<string>>) {
    (FullShown(p), ExpandShown(p), CollapseShown(p), p.card, p.featured)
  }

  /**
    Expanding and then collapsing a collapsed post brings back what the reader saw: full content hidden,
    expand button shown, collapse button hidden, and the card's classes exactly as before.
  */
  lemma ExpandThenCollapse(p: Post)
    requires Collapsed(p)
    ensures Collapsed(Collapse(Expand(p)))
    ensures View(Collapse(Expand(p))) == View(p)
  {
    var r := Collapse(Expand(p));
    assert r.sheet == p.sheet;
    if p.card.Some? {
      assert r.card.value == p.card.value;
    }
    if p.featured.Some? {
      assert r.featured.value == p.featured.value;
    }
  }

  /**
    A post on a page that leaves all three inline styles empty, under a stylesheet that hides the full
    content and the collapse button, is collapsed, so `ExpandThenCollapse` covers it: after a round trip
    the inline styles are set, yet the reader sees the same post.
  */
  lemma SheetHiddenRoundTrip(card: Option<set<string>>, featured: Option<set<string>>)
    requires card.Some? ==> Expanded !in card.value
    requires featured.Some? ==> Expanded !in featured.value
    ensures var p := Post(Sheet(false, true, false), Unset, Unset, Unset, card, featured);
      && Collapsed(p)
      && var r := Collapse(Expand(p));
      && r.full != Unset && r.expand != Unset && r.collapse != Unset
      && View(r) == View(p)
  {
    ExpandThenCollapse(Post(Sheet(false, true, false), Unset, Unset, Unset, card, featured));
  }

  /** Collapsing forgets whether the post was expanded, and expanding forgets whether it was collapsed. */
  lemma HandlersForgetHistory(p: Post)
    ensures Collapse(Expand(p)) == Collapse(p)
    ensures Expand(Collapse(p)) == Expand(p)
  {
    if p.card.Some? {
      assert p.card.value - {Expanded} + {Expanded} == p.card.value + {Expanded};
    }
    if p.featured.Some? {
      assert p.featured.value - {Expanded} + {Expanded} == p.featured.value + {Expanded};
    }
  }
}

=== FILE: carousel.dfy ===
/**
  `initTestimonialSlider` (js/main.js:337-403): a modular index over the testimonial items, driven by dot
  clicks, the previous and next buttons, and a five-second auto-advance timer.
*/
module Carousel {
  import opened Dom

  /** The stylesheet displays a testimonial item that has no inline `display`. */
  const ItemSheetShows := true

  /**
    A testimonial item: its inline display, and the classes of its `.testimonial-content` and
    `.testimonial-author` descendants, `None` when the item lacks one.
  */
  datatype Item = Item(display: Display, content: Option<set<string>>, author: Option<set<string>>)

  /** The slider: its items, the class lists of its dots, and `currentIndex`. */
  datatype Slider = Slider(items: seq<Item>, dots: seq<set<string>>, current: int)

  /** The result of a handler: the slider afterwards, and whether it stopped on a TypeError part way. */
  datatype Outcome = Outcome(slider: Slider, threw: bool)

  /** Equally many items and dots, at least one of each, every item with content and author. */
  predicate WellFormed(s: Slider) {
    && |s.items| == |s.dots| && |s.items| >= 1
    && 0 <= s.current < |s.items|
    && forall i :: 0 <= i < |s.items| ==> s.items[i].content.Some? && s.items[i].author.Some?
  }

  /** Setup (main.js:343-350): every item but the first is hidden and `currentIndex` is 0. */
  function Init(items: seq<Item>, dots: seq<set<string>>): (s: Slider)
    ensures s.current == 0 && |s.items| == |items| && s.dots == dots
    ensures forall i :: 0 < i < |items| ==> s.items[i].display == DisplayNone
    ensures |items| > 0 ==> s.items[0] == items[0]
  {
    Slider(seq(|items|, i requires 0 <= i < |items| =>
             if i != 0 then items[i].(display := DisplayNone) else items[i]), dots, 0)
  }

  function HideAll(items: seq<Item>): (r: seq<Item>)
    ensures |r| == |items|
    ensures forall i :: 0 <= i < |r| ==> r[i] == items[i].(display := DisplayNone)
  {
    seq(|items|, i requires 0 <= i < |items| => items[i].(display := DisplayNone))
  }

  function ClearDots(dots: seq<set<string>>): (r: seq<set<string>>)
    ensures |r| == |dots|
    ensures forall i :: 0 <= i < |r| ==> r[i] == dots[i] - {Active}
  {
    seq(|dots|, i requires 0 <= i < |dots| => dots[i] - {Active})
  }

  /**
    `showTestimonial(index)` (main.js:353-374): hide every item, deactivate every dot, show item `index`,
    activate dot `index`, animate its content and author, then set `currentIndex`. An index with no item
    or no dot, or an item without content or author, throws part way and leaves `currentIndex` as it was.
  */
  function Show(s: Slider, index: int): (o: Outcome)
    ensures !o.threw ==> o.slider.current == index && 0 <= index < |s.items| && index < |s.dots|
    ensures o.threw ==> o.slider.current == s.current
    ensures |o.slider.items| == |s.items| && |o.slider.dots| == |s.dots|
  {
    var items := HideAll(s.items);
    var dots := ClearDots(s.dots);
    if !(0 <= index < |items|) then Outcome(Slider(items, dots, s.current), true)
    else
      var items := items[index := items[index].(display := DisplayBlock)];
      if !(index < |dots|) then Outcome(Slider(items, dots, s.current), true)
      else
        var dots := dots[index := dots[index] + {Active}];
        var item := items[index];
        if item.content.None? then Outcome(Slider(items, dots, s.current), true)
        else
          var items := items[index := item.(content := Some(item.content.value + {FadeIn}))];
          var item := items[index];
          if item.author.None? then Outcome(Slider(items, dots, s.current), true)
          else
            var items := items[index := item.(author := Some(item.author.value + {SlideUp}))];
            Outcome(Slider(items, dots, index), false)
  }

  /** The previous button (main.js:384-388). */
  function Prev(s: Slider): (o: Outcome)
    ensures o.threw ==> o.slider.current == s.current
    ensures !o.threw ==> 0 <= o.slider.current < |o.slider.items|
    ensures !o.threw && 0 < s.current < |s.items| ==> o.slider.current == s.current - 1
  {
    var index := s.current - 1;
    Show(s, if index < 0 then |s.items| - 1 else index)
  }

  /** The next button (main.js:391-395); the auto-advance timer (main.js:398-402) runs the same code. */
  function Next(s: Slider): (o: Outcome)
    ensures o.threw ==> o.slider.current == s.current
    ensures !o.threw ==> 0 <= o.slider.current < |o.slider.items|
    ensures !o.threw && 0 <= s.current < |s.items| - 1 ==> o.slider.current == s.current + 1
  {
    var index := s.current + 1;
    Show(s, if index >= |s.items| then 0 else index)
  }

  /** The events that drive the slider. */
  datatype Event = DotClick(dot: nat) | PrevClick | NextClick | AutoTick

  function Step(s: Slider, e: Event): (o: Outcome)
    ensures o.threw ==> o.slider.current == s.current
    ensures !o.threw && 0 <= s.current < |s.items| ==> 0 <= o.slider.current < |o.slider.items|
  {
    match e
    case DotClick(k) => if k < |s.dots| then Show(s, k) else Outcome(s, false)
    case PrevClick => Prev(s)
    case NextClick => Next(s)
    case AutoTick => Next(s)
  }

  /** The index and the selection a user sees: which items are shown and which dots are active. */
  function View(s: Slider): (int, set<nat>, set<nat>) {
    (s.current,
     set i: nat | i < |s.items| && Shown(s.items[i].display, ItemSheetShows),
     set i: nat | i < |s.dots| && Active in s.dots[i])
  }

  /**
    After `showTestimonial(k)` on a well-formed slider, exactly item `k` is shown, exactly dot `k` is
    active, `currentIndex` is `k`, and no dot loses any other class.
  */
  lemma ShowSelects(s: Slider, k: int)
    requires WellFormed(s) && 0 <= k < |s.items|
    ensures var o := Show(s, k);
      && !o.threw && WellFormed(o.slider) && o.slider.current == k
      && (forall i :: 0 <= i < |s.items| ==> (Shown(o.slider.items[i].display, ItemSheetShows) <==> i == k))
      && (forall i :: 0 <= i < |s.dots| ==> (Active in o.slider.dots[i] <==> i == k))
      && (forall i :: 0 <= i < |s.dots| ==> o.slider.dots[i] - {Active} == s.dots[i] - {Active})
      && View(o.slider) == (k, {k as nat}, {k as nat})
  {
    var o := Show(s, k);
    assert forall i :: 0 <= i < |s.items| ==> (Shown(o.slider.items[i].display, ItemSheetShows) <==> i == k);
    assert forall i :: 0 <= i < |s.dots| ==> (Active in o.slider.dots[i] <==> i == k);
    var (_, shown, active) := View(o.slider);
    assert shown == {k as nat} by {
      forall i: nat | i in shown ensures i == k { }
    }
    assert active == {k as nat} by {
      forall i: nat | i in active ensures i == k { }
    }
  }

  /** Next moves to `(i + 1) mod n` and keeps the slider well-formed. */
  lemma NextIndex(s: Slider)
    requires WellFormed(s)
    ensures !Next(s).threw && Next(s).slider.current == (s.current + 1) % |s.items| && WellFormed(Next(s).slider)
  {
    var n, i := |s.items|, s.current;
    var k := if i + 1 >= n then 0 else i + 1;
    WrapUp(i, n);
    assert Next(s) == Show(s, k);
    ShowSelects(s, k);
  }

  /** Previous moves to `(i - 1 + n) mod n` and keeps the slider well-formed. */
  lemma PrevIndex(s: Slider)
    requires WellFormed(s)
    ensures !Prev(s).threw && Prev(s).slider.current == (s.current - 1 + |s.items|) % |s.items| && WellFormed(Prev(s).slider)
  {
    var n, i := |s.items|, s.current;
    var k := if i - 1 < 0 then n - 1 else i - 1;
    WrapDown(i, n);
    assert Prev(s) == Show(s, k);
    ShowSelects(s, k);
  }

  lemma WrapUp(i: int, n: int)
    requires 0 <= i < n
    ensures (i + 1) % n == if i + 1 >= n then 0 else i + 1
  {
  }

  lemma WrapDown(i: int, n: int)
    requires 0 <= i < n
    ensures (i - 1 + n) % n == if i - 1 < 0 then n - 1 else i - 1
  {
  }

  /** Previous after next returns to the same index and the same visible selection. */
  lemma PrevAfterNext(s: Slider)
    requires WellFormed(s)
    ensures var back := Prev(Next(s).slider);
      !back.threw && View(back.slider) == (s.current, {s.current as nat}, {s.current as nat})
  {
    NextIndex(s);
    var t := Next(s).slider;
    PrevIndex(t);
    var n := |s.items|;
    var i := s.current;
    assert t.current == (i + 1) % n;
    if i + 1 < n {
      assert (t.current - 1 + n) % n == i;
    } else {
      assert t.current == 0;
      assert (t.current - 1 + n) % n == i;
    }
    ShowSelects(t, i);
  }

  /** Every event keeps a well-formed slider well-formed: the index stays in `[0, n)` and nothing throws. */
  lemma StepKeepsWellFormed(s: Slider, e: Event)
    requires WellFormed(s)
    ensures !Step(s, e).threw && WellFormed(Step(s, e).slider)
  {
    match e
    case DotClick(k) =>
      if k < |s.dots| {
        ShowSelects(s, k);
      }
    case PrevClick => PrevIndex(s);
    case NextClick => NextIndex(s);
    case AutoTick => NextIndex(s);
  }

  function RunEvents(s: Slider, events: seq<Event>): Slider
    decreases |events|
  {
    if events == [] then s else RunEvents(Step(s, events[0]).slider, events[1..])
  }

  lemma {:induction false} RunKeepsWellFormed(s: Slider, events: seq<Event>)
    requires WellFormed(s)
    ensures WellFormed(RunEvents(s, events))
    ensures 0 <= RunEvents(s, events).current < |s.items|
    decreases |events|
  {
    if events != [] {
      StepKeepsWellFormed(s, events[0]);
      RunKeepsWellFormed(Step(s, events[0]).slider, events[1..]);
    }
  }

  /** With no testimonials every next click and every auto-advance tick throws and changes no index. */
  lemma EmptySliderThrows(s: Slider)
    requires |s.items| == 0
    ensures Next(s).threw && Next(s).slider.current == s.current
    ensures Prev(s).threw && Prev(s).slider.current == s.current
  {
  }
}

=== FILE: counter.dfy ===
/**
  The counting-number effect of js/animation.js: the target parsed from the element's text, the decimal text
  a number is shown as, and the ramp `animateCounter` plays. Values are exact integers and rationals; the
  source computes them in IEEE doubles.
*/
module Counter {

  /** `duration`, `stepTime` and `totalSteps` of `animateCounter`. */
  const Duration: nat := 1500
  const StepTime: nat := 20
  const TotalSteps: nat := Duration / StepTime

  predicate IsDigit(c: char) {
    '0' <= c <= '9'
  }

  predicate AllDigits(s: string) {
    forall i :: 0 <= i < |s| ==> IsDigit(s[i])
  }

  /** `text.replace(/\D/g, '')`: the text with every character other than 0-9 deleted. */
  function DigitsOnly(s: string): (r: string)
    ensures AllDigits(r)
    ensures |r| <= |s|
  {
    if s == [] then [] else (if IsDigit(s[0]) then [s[0]] else []) + DigitsOnly(s[1..])
  }

  function DigitValue(c: char): (d: nat)
    requires IsDigit(c)
    ensures d < 10
  {
    (c as int - '0' as int) as nat
  }

  function DigitChar(d: nat): (c: char)
    requires d < 10
    ensures IsDigit(c) && DigitValue(c) == d
  {
    ('0' as int + d) as char
  }

  /** The number a string of decimal digits denotes; the empty string denotes 0. */
  function Value(ds: string): nat
    requires AllDigits(ds)
  {
    if ds == [] then 0 else 10 * Value(ds[..|ds| - 1]) + DigitValue(ds[|ds| - 1])
  }

  /**
    `parseInt(text.replace(/\D/g, '')) || 0` (animation.js:85): `parseInt('')` is NaN and `NaN || 0` is 0,
    and a parsed 0 is also replaced by 0, so the target is the value of the remaining digits.
  */
  function ParseTarget(text: string): (r: nat)
    ensures AllDigits(text) ==> r == Value(text)
    ensures DigitsOnly(text) == [] ==> r == 0
  {
    assert AllDigits(text) ==> DigitsOnly(text) == text by {
      if AllDigits(text) {
        DigitsOnlyKeepsDigits(text);
      }
    }
    Value(DigitsOnly(text))
  }

  /** `String(n)` for a non-negative integer: decimal digits without leading zeros. */
  function NatText(n: nat): (r: string)
    ensures AllDigits(r) && 1 <= |r|
    ensures r[0] == '0' ==> n == 0
  {
    if n < 10 then [DigitChar(n)] else NatText(n / 10) + [DigitChar(n % 10)]
  }

  /** `element.textContent = n` for an integer `n`. */
  function Text(n: int): string {
    if n < 0 then "-" + NatText(-n) else NatText(n)
  }

  // ---------------------------------------------------------------------------------------------
  // Deleting non-digits

  lemma {:induction false} DigitsOnlyAppend(a: string, b: string)
    ensures DigitsOnly(a + b) == DigitsOnly(a) + DigitsOnly(b)
  {
    if a == [] {
      assert a + b == b;
    } else {
      assert (a + b)[0] == a[0];
      assert (a + b)[1..] == a[1..] + b;
      DigitsOnlyAppend(a[1..], b);
    }
  }

  /** Deleting non-digits leaves a string of digits as it is ... */
  lemma {:induction false} DigitsOnlyKeepsDigits(s: string)
    requires AllDigits(s)
    ensures DigitsOnly(s) == s
  {
    if s != [] {
      DigitsOnlyKeepsDigits(s[1..]);
    }
  }

  /** ... and a character that is not a digit contributes nothing to the target. */
  lemma NonDigitIgnored(a: string, c: char, b: string)
    requires !IsDigit(c)
    ensures ParseTarget(a + [c] + b) == ParseTarget(a + b)
  {
    DigitsOnlyAppend(a + [c], b);
    DigitsOnlyAppend(a, [c]);
    DigitsOnlyAppend(a, b);
    assert DigitsOnly([c]) == [];
    assert DigitsOnly(a) + [] == DigitsOnly(a);
  }

  // ---------------------------------------------------------------------------------------------
  // Text round trip

  lemma {:induction false} ValueOfNatText(n: nat)
    ensures Value(NatText(n)) == n
  {
    if n >= 10 {
      ValueOfNatText(n / 10);
      var r := NatText(n / 10) + [DigitChar(n % 10)];
      assert r[..|r| - 1] == NatText(n / 10);
    }
  }

  /** Parsing the text a counter shows for a non-negative value gives the value back. */
  lemma ParseTargetOfText(n: nat)
    ensures ParseTarget(Text(n)) == n
  {
    DigitsOnlyKeepsDigits(NatText(n));
    ValueOfNatText(n);
  }

  // ---------------------------------------------------------------------------------------------
  // The eased ramp

  /**
    The value of tick `s`: `Math.floor(start + (end - start) * (1 - (1 - s / 75) ** 2))`. Since
    `1 - (1 - s/75)^2 = s * (150 - s) / 5625` and `start` is an integer, this is `start` plus the floor of an
    integer quotient; Dafny's `/` by a positive divisor rounds down like `Math.floor`.
  */
  function Eased(start: int, end: int, s: int): (r: int)
    ensures s == 0 || start == end ==> r == start
  {
    start + ((end - start) * s * (2 * TotalSteps - s)) / (TotalSteps * TotalSteps)
  }

  /** The source's formula evaluated over the rationals. */
  ghost function EasedExact(start: int, end: int, s: int): real {
    var progress := s as real / TotalSteps as real;
    start as real + (end - start) as real * (1.0 - (1.0 - progress) * (1.0 - progress))
  }

  lemma EasedExactClosedForm(start: int, end: int, s: int)
    ensures EasedExact(start, end, s) == start as real + ((end - start) * s * (150 - s)) as real / 5625.0
  {
    var p := s as real / 75.0;
    var k := (end - start) as real;
    assert 1.0 - (1.0 - p) * (1.0 - p) == 2.0 * p - p * p;
    assert 2.0 * p - p * p == (s as real * (150.0 - s as real)) / 5625.0;
    assert ((end - start) * s * (150 - s)) as real == k * (s as real * (150.0 - s as real));
  }

  /** The integer value of tick `s` is the floor of the source's formula. */
  lemma EasedIsFloor(start: int, end: int, s: int)
    ensures Eased(start, end, s) as real <= EasedExact(start, end, s) < Eased(start, end, s) as real + 1.0
  {
    EasedExactClosedForm(start, end, s);
    var q := (end - start) * s * (150 - s);
    var d, m := q / 5625, q % 5625;
    assert q == 5625 * d + m && 0 <= m < 5625;
    assert q as real / 5625.0 == d as real + m as real / 5625.0;
  }

  lemma ProductGrows(s1: int, s2: int)
    requires 0 <= s1 <= s2 <= TotalSteps
    ensures s1 * (150 - s1) <= s2 * (150 - s2)
  {
    var a, b := s2 - s1, 150 - s1 - s2;
    assert 0 <= a && 0 <= b;
    MulNonNegative(a, b);
    assert s2 * (150 - s2) == 150 * s2 - s2 * s2;
    assert s1 * (150 - s1) == 150 * s1 - s1 * s1;
    assert a * b == 150 * s2 - s2 * s2 - 150 * s1 + s1 * s1;
  }

  lemma MulNonNegative(a: int, b: int)
    requires 0 <= a && 0 <= b
    ensures 0 <= a * b
  {
  }

  lemma {:induction false} ScaleMonotone(k: int, a: int, b: int)
    requires 0 <= k && a <= b
    ensures k * a <= k * b
  {
    assert k * b - k * a == k * (b - a);
  }

  lemma {:induction false} FloorDivMonotone(a: int, b: int, d: int)
    requires a <= b && 0 < d
    ensures a / d <= b / d
  {
    var qa, ra := a / d, a % d;
    var qb, rb := b / d, b % d;
    assert a == d * qa + ra && b == d * qb + rb;
    if qa > qb {
      ScaleMonotone(d, qb + 1, qa);
      assert false;
    }
  }

  /** Rising from `start` towards `end`, the ramp never goes down between ticks 0 and 75. */
  lemma {:induction false} EasedMonotone(start: int, end: int, s1: int, s2: int)
    requires start <= end
    requires 0 <= s1 <= s2 <= TotalSteps
    ensures Eased(start, end, s1) <= Eased(start, end, s2)
  {
    ProductGrows(s1, s2);
    ScaleMonotone(end - start, s1 * (150 - s1), s2 * (150 - s2));
    assert (end - start) * s1 * (150 - s1) == (end - start) * (s1 * (150 - s1));
    assert (end - start) * s2 * (150 - s2) == (end - start) * (s2 * (150 - s2));
    FloorDivMonotone((end - start) * s1 * (150 - s1), (end - start) * s2 * (150 - s2), 5625);
  }

  /** The ramp starts at `start`, and at tick 75 the formula already equals `end` exactly. */
  lemma {:induction false} EasedEnds(start: int, end: int)
    ensures Eased(start, end, 0) == start
    ensures Eased(start, end, TotalSteps) == end
  {
    var k := end - start;
    assert TotalSteps == 75;
    assert k * 0 * 150 == 0;
    assert k * 75 * 75 == 5625 * k;
    assert (5625 * k) / 5625 == k;
  }

  /** Every tick's value lies between `start` and `end`. */
  lemma EasedBounded(start: int, end: int, s: int)
    requires start <= end
    requires 0 <= s <= TotalSteps
    ensures start <= Eased(start, end, s) <= end
  {
    EasedEnds(start, end);
    EasedMonotone(start, end, 0, s);
    EasedMonotone(start, end, s, TotalSteps);
  }

  // ---------------------------------------------------------------------------------------------
  // animateCounter

  /** What `animateCounter` does: write "0" at once, or run an interval of ticks showing these values. */
  datatype Run = ShowZero | Ticks(shown: seq<int>)

  /** The value the element shows after tick `s` (1-based): the eased value, snapped to `end` on the last tick. */
  function TickValue(start: int, end: int, s: nat): (r: int)
    ensures s >= TotalSteps ==> r == end
    ensures start <= end ==> start <= r <= end
  {
    if s >= TotalSteps then end
    else
      assert start <= end ==> start <= Eased(start, end, s) <= end by {
        if start <= end {
          EasedBounded(start, end, s);
        }
      }
      Eased(start, end, s)
  }

  /**
    `animateCounter(element, start, end)` (animation.js:104-135). The interval callback increments the step,
    shows the eased value, and on reaching `totalSteps` clears the interval and shows `end`.
  */
  method Animate(start: int, end: int) returns (r: Run)
    ensures end <= 0 <==> r == ShowZero
    ensures r.Ticks? ==> |r.shown| == TotalSteps
    ensures r.Ticks? ==> forall i :: 0 <= i < |r.shown| ==> r.shown[i] == TickValue(start, end, i + 1)
    ensures r.Ticks? ==> r.shown[|r.shown| - 1] == end
    ensures r.Ticks? && start <= end ==> forall i :: 0 <= i < |r.shown| ==> start <= r.shown[i] <= end
    ensures r.Ticks? && start <= end ==>
              forall i, j :: 0 <= i <= j < |r.shown| ==> r.shown[i] <= r.shown[j]
  {
    if end <= 0 {
      return ShowZero;
    }
    var shown: seq<int> := [];
    var step: nat := 0;
    var running := true;
    while running
      invariant step <= TotalSteps
      invariant running <==> step < TotalSteps
      invariant |shown| == step
      invariant forall i :: 0 <= i < step ==> shown[i] == TickValue(start, end, i + 1)
      invariant start <= end ==> forall i :: 0 <= i < step ==> start <= shown[i] <= end
      invariant start <= end ==> forall i, j :: 0 <= i <= j < step ==> shown[i] <= shown[j]
      decreases TotalSteps - step
    {
      step := step + 1;
      var current := Eased(start, end, step);
      if step >= TotalSteps {
        current := end;
      }
      if start <= end {
        if step < TotalSteps {
          EasedBounded(start, end, step);
        }
        forall i | 0 <= i < step - 1
          ensures shown[i] <= current
        {
          EasedMonotone(start, end, i + 1, step);
          EasedBounded(start, end, step);
        }
      }
      shown := shown + [current];
      running := step < TotalSteps;
    }
    r := Ticks(shown);
  }

  /**
    The only call site passes `start = 0`: each tick shows `Math.floor` of `end * (1 - (1 - s/75)^2)`,
    which rises from 0 to `end` without leaving that range.
  */
  lemma CallSiteRamp(end: int, s: int)
    requires 0 < end && 0 <= s <= TotalSteps
    ensures Eased(0, end, s) == EasedExact(0, end, s).Floor
    ensures 0 <= Eased(0, end, s) <= end
    ensures s == 0 ==> Eased(0, end, s) == 0
    ensures s == TotalSteps ==> Eased(0, end, s) == end
  {
    var e := Eased(0, end, s);
    assert e == EasedExact(0, end, s).Floor by {
      EasedIsFloor(0, end, s);
    }
    assert 0 <= e <= end by {
      EasedBounded(0, end, s);
    }
    if s == TotalSteps {
      assert end * s * (150 - s) == end * 5625;
    }
  }
}

=== FILE: dom.dfy ===
/** Element state shared by the widgets: class lists, inline `display` values and an optional value. */
module Dom {

  datatype Option<T> = None | Some(value: T)

  /** The inline `style.display` of an element; `Unset` is the empty string, which leaves the stylesheet in charge. */
  datatype Display = Unset | DisplayNone | DisplayBlock | DisplayInlineBlock

  /** Class names several widgets add or test. */
  const Active := "active"
  const Visible := "visible"
  const OnScroll := "animate-on-scroll"
  const FadeIn := "animate-fade-in"
  const SlideUp := "animate-slide-up"

  /**
    Whether an element is displayed: an inline value decides, and with none set the stylesheet does
    (`sheetShows`).
  */
  predicate Shown(d: Display, sheetShows: bool) {
    if d == Unset then sheetShows else d != DisplayNone
  }

  /** `classList.toggle(c)`. */
  function Toggle(cs: set<string>, c: string): (r: set<string>)
    ensures c in r <==> c !in cs
    ensures r - {c} == cs - {c}
  {
    if c in cs then cs - {c} else cs + {c}
  }

  /** `classList.remove(out)` followed by `classList.add(into)`. */
  function Swap(cs: set<string>, out: string, into: string): (r: set<string>)
    requires out != into
    ensures into in r && out !in r
    ensures r - {out, into} == cs - {out, into}
  {
    cs - {out} + {into}
  }
}

=== FILE: filter.dfy ===
/**
  `initPortfolioFilter` (js/main.js:408-451): a click on a filter button makes it the only active button and
  shows the work items whose `data-category` contains the button's `data-filter`, or all of them for `all`.
*/
module Filter {
  import opened Dom

  /** A filter button: its classes and its `data-filter` attribute. */
  datatype Button = Button(classes: set<string>, filter: Option<string>)

  /** The inline opacity and transform: none yet, `1`/`scale(1)`, or `0`/`scale(0.8)`. */
  datatype Look = Unstyled | Full | Faded

  /** A work item: its `data-category` attribute, inline display and look. */
  datatype Item = Item(category: Option<string>, display: Display, look: Look)

  // ---------------------------------------------------------------------------------------------
  // Substring search

  /** `s.includes(sub)`. */
  function Includes(s: string, sub: string): (r: bool)
    ensures r ==> |sub| <= |s|
    ensures |sub| <= |s| && s[..|sub|] == sub ==> r
    decreases |s|
  {
    if |sub| > |s| then false
    else if s[..|sub|] == sub then true
    else Includes(s[1..], sub)
  }

  /** `sub` occurs in `s` starting at position `i`. */
  ghost predicate OccursAt(s: string, sub: string, i: int) {
    0 <= i && i + |sub| <= |s| && s[i..i + |sub|] == sub
  }

  /** The search finds `sub` exactly when it occurs somewhere in `s`. */
  lemma {:induction false} IncludesIff(s: string, sub: string)
    ensures Includes(s, sub) <==> exists i :: OccursAt(s, sub, i)
    decreases |s|
  {
    if |sub| > |s| {
    } else if s[..|sub|] == sub {
      assert OccursAt(s, sub, 0);
    } else {
      IncludesIff(s[1..], sub);
      if exists i :: OccursAt(s[1..], sub, i) {
        var i :| OccursAt(s[1..], sub, i);
        assert s[i + 1..i + 1 + |sub|] == s[1..][i..i + |sub|];
        assert OccursAt(s, sub, i + 1);
      }
      if exists i :: OccursAt(s, sub, i) {
        var i :| OccursAt(s, sub, i);
        assert i != 0;
        assert s[1..][i - 1..i - 1 + |sub|] == s[i..i + |sub|];
        assert OccursAt(s[1..], sub, i - 1);
      }
    }
  }

  // ---------------------------------------------------------------------------------------------
  // The click handler

  /** `filter === 'all'`. */
  predicate IsAll(f: Option<string>) {
    f == Some("all")
  }

  /** What `includes` searches for: a missing `data-filter` reads as null, which `includes` turns into "null". */
  function SearchText(f: Option<string>): string {
    if f.Some? then f.value else "null"
  }

  /** Whether the filter keeps an item with this category. */
  predicate Keeps(f: Option<string>, category: Option<string>) {
    IsAll(f) || (category.Some? && Includes(category.value, SearchText(f)))
  }

  /** Exactly the clicked button carries `active` (main.js:415-420). */
  function ActivateOnly(buttons: seq<Button>, clicked: nat): (r: seq<Button>)
    requires clicked < |buttons|
    ensures |r| == |buttons|
    ensures forall i :: 0 <= i < |r| ==> (Active in r[i].classes <==> i == clicked)
    ensures forall i :: 0 <= i < |r| ==> r[i].classes - {Active} == buttons[i].classes - {Active}
    ensures forall i :: 0 <= i < |r| ==> r[i].filter == buttons[i].filter
  {
    seq(|buttons|, i requires 0 <= i < |buttons| =>
      buttons[i].(classes := if i == clicked then buttons[i].classes + {Active} else buttons[i].classes - {Active}))
  }

  /**
    The immediate effect on one item (main.js:427-446): a kept item is displayed as a block, a dropped one is
    faded; `None` when the item has no `data-category` and the filter is not `all`, where
    `null.includes` throws.
  */
  function ItemNow(item: Item, f: Option<string>): (r: Option<Item>)
    ensures r.None? <==> !IsAll(f) && item.category.None?
    ensures r.Some? ==> r.value.category == item.category
    ensures r.Some? && Keeps(f, item.category) ==> r.value.display == DisplayBlock && r.value.look == item.look
    ensures r.Some? && !Keeps(f, item.category) ==> r.value.display == item.display && r.value.look == Faded
  {
    if IsAll(f) then Some(item.(display := DisplayBlock))
    else if item.category.None? then None
    else if Includes(item.category.value, SearchText(f)) then Some(item.(display := DisplayBlock))
    else Some(item.(look := Faded))
  }

  /** The effect of the item's timer: 50 ms later a kept item is unfaded, 300 ms later a dropped one is hidden. */
  function ItemLater(item: Item, f: Option<string>): (r: Item)
    ensures r.category == item.category
    ensures Keeps(f, item.category) ==> r.display == item.display && r.look == Full
    ensures !Keeps(f, item.category) ==> r.display == DisplayNone && r.look == item.look
  {
    if Keeps(f, item.category) then item.(look := Full) else item.(display := DisplayNone)
  }

  /**
    The loop over the items: the items right after the click and how many were handled. The loop stops at
    the first item that throws, leaving it and the items after it untouched.
  */
  function FilterNow(items: seq<Item>, f: Option<string>): (r: (seq<Item>, nat))
    ensures |r.0| == |items| && r.1 <= |items|
    ensures forall i :: 0 <= i < r.1 ==> ItemNow(items[i], f).Some? && r.0[i] == ItemNow(items[i], f).value
    ensures forall i :: r.1 <= i < |items| ==> r.0[i] == items[i]
    ensures r.1 < |items| ==> ItemNow(items[r.1], f).None?
    decreases |items|
  {
    if items == [] then ([], 0)
    else
      match ItemNow(items[0], f)
      case None => (items, 0)
      case Some(it) =>
        var rest := FilterNow(items[1..], f);
        ([it] + rest.0, rest.1 + 1)
  }

  /** The state once the timers of the handled items have fired, with no later click in between. */
  function Settle(now: seq<Item>, handled: nat, f: Option<string>): (r: seq<Item>)
    requires handled <= |now|
    ensures |r| == |now|
  {
    seq(|now|, i requires 0 <= i < |now| => if i < handled then ItemLater(now[i], f) else now[i])
  }

  datatype Clicked = Clicked(buttons: seq<Button>, items: seq<Item>, settled: seq<Item>, threw: bool)

  /** A click on button `clicked`. */
  function Click(buttons: seq<Button>, items: seq<Item>, clicked: nat): (c: Clicked)
    requires clicked < |buttons|
    ensures |c.buttons| == |buttons| && |c.items| == |items| && |c.settled| == |items|
    ensures forall i :: 0 <= i < |buttons| ==> (Active in c.buttons[i].classes <==> i == clicked)
    ensures forall i :: 0 <= i < |items| ==> c.items[i].category == items[i].category
  {
    var f := buttons[clicked].filter;
    var now := FilterNow(items, f);
    Clicked(ActivateOnly(buttons, clicked), now.0, Settle(now.0, now.1, f), now.1 < |items|)
  }

  /** The handler throws exactly when the filter is not `all` and some item has no category. */
  lemma ClickThrows(buttons: seq<Button>, items: seq<Item>, clicked: nat)
    requires clicked < |buttons|
    ensures Click(buttons, items, clicked).threw <==>
              !IsAll(buttons[clicked].filter) && exists i :: 0 <= i < |items| && items[i].category.None?
  {
    var f := buttons[clicked].filter;
    var now := FilterNow(items, f);
    if now.1 < |items| {
      assert items[now.1].category.None?;
    }
  }

  /**
    In the settled state after a click that does not throw, an item is displayed exactly when the filter is
    `all` or its category contains the filter, and it is then fully opaque; every other item is hidden.
  */
  lemma SettledShowsKept(buttons: seq<Button>, items: seq<Item>, clicked: nat)
    requires clicked < |buttons|
    requires !Click(buttons, items, clicked).threw
    ensures var c := Click(buttons, items, clicked);
      var f := buttons[clicked].filter;
      forall i :: 0 <= i < |items| ==>
        && (IsAll(f) || items[i].category.Some?)
        && (c.settled[i].display == DisplayBlock <==> IsAll(f) || Includes(items[i].category.value, SearchText(f)))
        && (c.settled[i].display == DisplayNone <==> !IsAll(f) && !Includes(items[i].category.value, SearchText(f)))
        && (c.settled[i].look == Full <==> c.settled[i].display == DisplayBlock)
  {
  }

  /** Right after the click, kept items are displayed at once, and dropped ones fade but stay until hidden. */
  lemma ImmediateEffect(buttons: seq<Button>, items: seq<Item>, clicked: nat)
    requires clicked < |buttons|
    requires !Click(buttons, items, clicked).threw
    ensures var c := Click(buttons, items, clicked);
      var f := buttons[clicked].filter;
      forall i :: 0 <= i < |items| ==>
        if Keeps(f, items[i].category) then c.items[i].display == DisplayBlock && c.items[i].look == items[i].look
        else c.items[i].display == items[i].display && c.items[i].look == Faded
  {
  }
}

=== FILE: form_check.dfy ===
/**
  The submit handler every form gets (js/main.js:509-543): each required field whose trimmed value is empty
  is marked with `error` and followed by one `error-message` element; each filled one loses both; the
  submission is prevented when some required field is blank.
*/
module FormCheck {

  const Error := "error"
  const ErrorMessage := "error-message"

  /**
    Characters `String.prototype.trim` removes: the white space (tab, vertical tab, form feed, space,
    no-break space, byte order mark and the other space separators) and the line terminators.
  */
  predicate IsSpace(c: char) {
    var n := c as int;
    || 0x09 <= n <= 0x0D || n == 0x20 || n == 0xA0 || n == 0x1680 || 0x2000 <= n <= 0x200A
    || n == 0x2028 || n == 0x2029 || n == 0x202F || n == 0x205F || n == 0x3000 || n == 0xFEFF
  }

  function TrimStart(s: string): (r: string)
    ensures |r| <= |s| && r == s[|s| - |r|..]
    ensures r != [] ==> !IsSpace(r[0])
    ensures forall i :: 0 <= i < |s| - |r| ==> IsSpace(s[i])
  {
    if s != [] && IsSpace(s[0]) then TrimStart(s[1..]) else s
  }

  function TrimEnd(s: string): (r: string)
    ensures |r| <= |s| && r == s[..|r|]
    ensures r != [] ==> !IsSpace(r[|r| - 1])
    ensures forall i :: |r| <= i < |s| ==> IsSpace(s[i])
  {
    if s != [] && IsSpace(s[|s| - 1]) then TrimEnd(s[..|s| - 1]) else s
  }

  /** `s.trim()`. */
  function Trim(s: string): (r: string)
    ensures |r| <= |s|
    ensures r != [] ==> !IsSpace(r[0]) && !IsSpace(r[|r| - 1])
  {
    TrimEnd(TrimStart(s))
  }

  /** A value is blank when trimming leaves nothing, that is, when every character is white space. */
  lemma BlankIffAllSpace(s: string)
    ensures Trim(s) == [] <==> forall i :: 0 <= i < |s| ==> IsSpace(s[i])
  {
  }

  /** `t` sits in `s` at position `i`. */
  ghost predicate PieceAt(s: string, t: string, i: int) {
    0 <= i <= |s| - |t| && s[i..i + |t|] == t
  }

  /** A trimmed value is a piece of the original with no white space at either end. */
  lemma TrimIsInnerPiece(s: string)
    ensures exists i :: PieceAt(s, Trim(s), i)
    ensures var t := Trim(s); t != [] ==> !IsSpace(t[0]) && !IsSpace(t[|t| - 1])
  {
    var a := TrimStart(s);
    var t := TrimEnd(a);
    var i := |s| - |a|;
    assert a == s[i..] && t == a[..|t|];
    assert s[i..i + |t|] == t;
    assert t == Trim(s);
    assert PieceAt(s, Trim(s), i);
    if t != [] {
      assert t[0] == a[0];
    }
  }

  // ---------------------------------------------------------------------------------------------
  // Fields and their error messages

  /** An element sibling: its classes and its text. */
  datatype Sibling = Sibling(classes: set<string>, text: string)

  /** The message the handler creates. */
  const Message := Sibling({ErrorMessage}, "This field is required")

  /** A required field: its value and classes. */
  datatype Field = Field(value: string, classes: set<string>)

  /**
    A required field with the element siblings that follow it, up to the next required field or the end of
    its parent; `after[0]` is its `nextElementSibling`.
  */
  datatype Row = Row(field: Field, after: seq<Sibling>)

  predicate Blank(f: Field) {
    Trim(f.value) == []
  }

  predicate StartsWithMessage(after: seq<Sibling>) {
    |after| > 0 && ErrorMessage in after[0].classes
  }

  /** The handler's work on one required field (main.js:516-535). */
  function CheckRow(r: Row): (c: Row)
    ensures c.field.value == r.field.value
    ensures Error in c.field.classes <==> Blank(r.field)
    ensures Blank(r.field) ==> StartsWithMessage(c.after)
    ensures !Blank(r.field) && NoDoubleMessage(r) ==> !StartsWithMessage(c.after)
  {
    if Blank(r.field) then
      var after := if StartsWithMessage(r.after) then r.after else [Message] + r.after;
      Row(r.field.(classes := r.field.classes + {Error}), after)
    else
      var after := if StartsWithMessage(r.after) then r.after[1..] else r.after;
      Row(r.field.(classes := r.field.classes - {Error}), after)
  }

  /** The rows after a submit, and whether the default submission is prevented. */
  datatype Submitted = Submitted(rows: seq<Row>, prevented: bool)

  /**
    The handler's `valid` flag (main.js:512-517): it starts `true` and each required field, in document
    order, clears it when blank and leaves it alone otherwise.
  */
  function Validate(rows: seq<Row>, valid: bool): bool
    decreases |rows|
  {
    if rows == [] then valid
    else Validate(rows[1..], if Blank(rows[0].field) then false else valid)
  }

  /** The flag ends `true` exactly when it started so and no required field is blank. */
  lemma {:induction false} ValidateIff(rows: seq<Row>, valid: bool)
    ensures Validate(rows, valid) <==> valid && forall i :: 0 <= i < |rows| ==> !Blank(rows[i].field)
    decreases |rows|
  {
    if rows != [] {
      var rest := rows[1..];
      var next := if Blank(rows[0].field) then false else valid;
      ValidateIff(rest, next);
      assert Validate(rows, valid) == Validate(rest, next);
      if forall i :: 0 <= i < |rows| ==> !Blank(rows[i].field) {
        assert !Blank(rows[0].field);
        assert forall i :: 0 <= i < |rest| ==> !Blank(rest[i].field) by {
          forall i | 0 <= i < |rest| ensures !Blank(rest[i].field) {
            assert rest[i] == rows[i + 1];
          }
        }
      } else {
        var k :| 0 <= k < |rows| && Blank(rows[k].field);
        if k > 0 {
          assert rest[k - 1] == rows[k];
        }
      }
    }
  }

  /** The whole handler: every required field is checked, and `preventDefault` runs when the flag ended `false`. */
  function Submit(rows: seq<Row>): (s: Submitted)
    ensures |s.rows| == |rows|
    ensures forall i :: 0 <= i < |rows| ==> s.rows[i].field.value == rows[i].field.value
    ensures !s.prevented ==> forall i :: 0 <= i < |rows| ==> Error !in s.rows[i].field.classes
  {
    ValidateIff(rows, true);
    Submitted(seq(|rows|, i requires 0 <= i < |rows| => CheckRow(rows[i])), !Validate(rows, true))
  }

  /** One field: it gains `error` exactly when blank, and nothing else about it changes. */
  lemma CheckRowMarks(r: Row)
    ensures CheckRow(r).field.value == r.field.value
    ensures Error in CheckRow(r).field.classes <==> Blank(r.field)
    ensures CheckRow(r).field.classes - {Error} == r.field.classes - {Error}
  {
    var c := CheckRow(r);
    if Blank(r.field) {
      assert c.field == r.field.(classes := r.field.classes + {Error});
    } else {
      assert c.field == r.field.(classes := r.field.classes - {Error});
    }
  }

  /**
    Submission is prevented exactly when some required field is blank; blank fields end with `error`,
    filled ones without, values and other classes untouched.
  */
  lemma SubmitMarksFields(rows: seq<Row>)
    ensures var s := Submit(rows);
      && (s.prevented <==> exists i :: 0 <= i < |rows| && Trim(rows[i].field.value) == [])
      && forall i :: 0 <= i < |rows| ==>
           && s.rows[i].field.value == rows[i].field.value
           && (Error in s.rows[i].field.classes <==> Blank(rows[i].field))
           && s.rows[i].field.classes - {Error} == rows[i].field.classes - {Error}
  {
    var s := Submit(rows);
    ValidateIff(rows, true);
    forall i | 0 <= i < |rows|
      ensures s.rows[i].field.value == rows[i].field.value
      ensures Error in s.rows[i].field.classes <==> Blank(rows[i].field)
      ensures s.rows[i].field.classes - {Error} == rows[i].field.classes - {Error}
    {
      CheckRowMarks(rows[i]);
    }
  }

  /**
    No field is followed by two error messages in a row. This is an assumption about the page's markup:
    the handler itself never creates a second one, but nothing stops the markup from carrying two.
  */
  predicate NoDoubleMessage(r: Row) {
    !(StartsWithMessage(r.after) && StartsWithMessage(r.after[1..]))
  }

  predicate AllNoDoubleMessage(rows: seq<Row>) {
    forall i :: 0 <= i < |rows| ==> NoDoubleMessage(rows[i])
  }

  /**
    What one field's check does to the siblings after it: a blank field reuses the message already
    there or gets a new one in front, a filled field loses the one message it had.
  */
  predicate MessagesSettled(before: Row, now: Row) {
    if Blank(before.field) then
      StartsWithMessage(now.after) && !StartsWithMessage(now.after[1..])
      && (StartsWithMessage(before.after) ==> now.after == before.after)
      && now.after[1..] == (if StartsWithMessage(before.after) then before.after[1..] else before.after)
    else
      !StartsWithMessage(now.after)
      && now.after == (if StartsWithMessage(before.after) then before.after[1..] else before.after)
  }

  lemma CheckRowMessages(r: Row)
    requires NoDoubleMessage(r)
    ensures NoDoubleMessage(CheckRow(r)) && MessagesSettled(r, CheckRow(r))
  {
    var c := CheckRow(r);
    if Blank(r.field) {
      if StartsWithMessage(r.after) {
        assert c.after == r.after;
      } else {
        assert c.after == [Message] + r.after;
        assert c.after[1..] == r.after;
      }
    } else {
      assert c.after == if StartsWithMessage(r.after) then r.after[1..] else r.after;
    }
  }

  /**
    On a page where no field is followed by two messages, a submit leaves each blank field followed by
    exactly one message and each filled field followed by none, the siblings beyond untouched, and
    the page again without double messages.
  */
  lemma SubmitMessages(rows: seq<Row>)
    requires AllNoDoubleMessage(rows)
    ensures AllNoDoubleMessage(Submit(rows).rows)
    ensures forall i :: 0 <= i < |rows| ==> MessagesSettled(rows[i], Submit(rows).rows[i])
  {
    var s := Submit(rows);
    forall i | 0 <= i < |rows|
      ensures NoDoubleMessage(s.rows[i]) && MessagesSettled(rows[i], s.rows[i])
    {
      CheckRowMessages(rows[i]);
    }
  }

  /** Submission is prevented exactly when some required field is blank. */
  lemma SubmitPreventedIff(rows: seq<Row>)
    ensures Submit(rows).prevented <==> exists i :: 0 <= i < |rows| && Blank(rows[i].field)
  {
    ValidateIff(rows, true);
  }

  /** Checking one field twice is checking it once. */
  lemma CheckRowIdempotent(r: Row)
    requires NoDoubleMessage(r)
    ensures CheckRow(CheckRow(r)) == CheckRow(r)
  {
    var c := CheckRow(r);
    CheckRowMessages(r);
    if Blank(r.field) {
      assert StartsWithMessage(c.after);
      assert c.field.classes + {Error} == c.field.classes;
    } else {
      assert !StartsWithMessage(c.after);
      assert c.field.classes - {Error} == c.field.classes;
    }
  }

  lemma SubmitRowsIdempotent(rows: seq<Row>)
    requires AllNoDoubleMessage(rows)
    ensures Submit(Submit(rows).rows).rows == Submit(rows).rows
  {
    var once := Submit(rows).rows;
    var twice := Submit(once).rows;
    forall i | 0 <= i < |rows|
      ensures twice[i] == once[i]
    {
      CheckRowIdempotent(rows[i]);
    }
  }

  /** Submitting again changes nothing: repeated submits never add a second message. */
  lemma SubmitIdempotent(rows: seq<Row>)
    requires AllNoDoubleMessage(rows)
    ensures Submit(Submit(rows).rows) == Submit(rows)
  {
    SubmitRowsIdempotent(rows);
    SubmitPreventedIff(rows);
    SubmitPreventedIff(Submit(rows).rows);
  }
}

=== FILE: menu.dfy ===
/**
  `initMobileMenu` (js/main.js:213-294): the menu toggle button, the per-dropdown chevrons on narrow
  screens, closing on an outside click, and the resize handler.
*/
module Menu {
  import opened Dom

  const Show := "show"
  const Bars := "fa-bars"
  const Times := "fa-times"

  /** Widths below this count as mobile. */
  const Breakpoint: int := 992

  /**
    A dropdown: whether it carries `active`, the id of the chevron span attached to its link if any, and the
    id of the span its click handler captured at setup.
  */
  datatype Dropdown = Dropdown(active: bool, attached: Option<nat>, captured: nat)

  /**
    The menu: classes of the nav, of the toggle button and of its icon, the window width, the dropdowns,
    the ids of chevron spans whose icon is turned 180 degrees, and the next unused span id.
  */
  datatype State = State(nav: set<string>, toggle: set<string>, icon: set<string>, width: int,
                         dropdowns: seq<Dropdown>, rotated: set<nat>, nextSpan: nat)

  /** Setup: every dropdown captures a fresh span, attached to its link only on a narrow window (main.js:237-246). */
  function Init(nav: set<string>, toggle: set<string>, icon: set<string>, width: int, open: seq<bool>): (m: State)
    ensures |m.dropdowns| == |open| && m.rotated == {}
    ensures forall i :: 0 <= i < |open| ==> m.dropdowns[i].captured == i && m.dropdowns[i].active == open[i]
    ensures forall i :: 0 <= i < |open| ==> (m.dropdowns[i].attached.Some? <==> width < Breakpoint)
  {
    State(nav, toggle, icon, width,
         seq(|open|, i requires 0 <= i < |open| =>
           Dropdown(open[i], if width < Breakpoint then Some(i) else None, i)),
         {}, |open|)
  }

  /** The toggle button's click handler (main.js:220-233). */
  function ToggleClick(m: State): (r: State)
    ensures Show in r.nav <==> Show !in m.nav
    ensures Active in r.toggle <==> Active !in m.toggle
    ensures Bars in m.icon ==> Times in r.icon && Bars !in r.icon
    ensures Bars !in m.icon ==> Bars in r.icon && Times !in r.icon
    ensures r.(nav := m.nav, toggle := m.toggle, icon := m.icon) == m
    ensures r.nav - {Show} == m.nav - {Show} && r.toggle - {Active} == m.toggle - {Active}
    ensures r.icon - {Bars, Times} == m.icon - {Bars, Times}
  {
    var icon := if Bars in m.icon then Swap(m.icon, Bars, Times) else Swap(m.icon, Times, Bars);
    m.(nav := Toggle(m.nav, Show), toggle := Toggle(m.toggle, Active), icon := icon)
  }

  /** The document click handler (main.js:266-274), for a click whose target is inside the nav or the toggle or neither. */
  function DocumentClick(m: State, insideNav: bool, insideToggle: bool): (r: State)
    ensures r.(nav := m.nav, toggle := m.toggle, icon := m.icon) == m
    ensures r.nav - {Show} == m.nav - {Show} && r.toggle - {Active} == m.toggle - {Active}
    ensures r.icon - {Bars, Times} == m.icon - {Bars, Times}
    ensures !insideNav && !insideToggle ==> Show !in r.nav
    ensures Show !in m.nav ==> r == m
  {
    if !insideNav && !insideToggle && Show in m.nav then
      m.(nav := m.nav - {Show}, toggle := m.toggle - {Active}, icon := Swap(m.icon, Times, Bars))
    else
      m
  }

  /** The click handler of dropdown `j`'s link as written (main.js:249-262): it turns the span it captured. */
  function LinkClickAsWritten(m: State, j: nat): (r: State)
    ensures |r.dropdowns| == |m.dropdowns| && r.nav == m.nav && r.toggle == m.toggle && r.icon == m.icon
    ensures forall i :: 0 <= i < |m.dropdowns| && i != j ==> r.dropdowns[i] == m.dropdowns[i]
    ensures m.width < Breakpoint && j < |m.dropdowns| ==>
              && r.dropdowns[j].active == !m.dropdowns[j].active
              && (m.dropdowns[j].captured in r.rotated <==> r.dropdowns[j].active)
    ensures m.width >= Breakpoint ==> r == m
  {
    if m.width < Breakpoint && j < |m.dropdowns| then
      var d := m.dropdowns[j];
      var open := !d.active;
      m.(dropdowns := m.dropdowns[j := d.(active := open)],
         rotated := if open then m.rotated + {d.captured} else m.rotated - {d.captured})
    else
      m
  }

  /** The link click handler corrected to turn the chevron attached to the link when clicked. */
  function LinkClick(m: State, j: nat): (r: State)
    ensures |r.dropdowns| == |m.dropdowns|
    ensures m.width < Breakpoint && j < |m.dropdowns| && m.dropdowns[j].attached.Some? ==>
              r.dropdowns[j].active == !m.dropdowns[j].active && (ChevronTurned(r, j) <==> r.dropdowns[j].active)
  {
    if m.width < Breakpoint && j < |m.dropdowns| then
      var d := m.dropdowns[j];
      var open := !d.active;
      var rotated := match d.attached
        case None => m.rotated
        case Some(span) => if open then m.rotated + {span} else m.rotated - {span};
      m.(dropdowns := m.dropdowns[j := d.(active := open)], rotated := rotated)
    else
      m
  }

  /** Narrow resize: every dropdown without a chevron gets a freshly created one (main.js:283-290). */
  function AttachMissing(ds: seq<Dropdown>, next: nat): (r: (seq<Dropdown>, nat))
    ensures |r.0| == |ds| && next <= r.1
    ensures forall i :: 0 <= i < |ds| ==> r.0[i].active == ds[i].active && r.0[i].captured == ds[i].captured
    ensures forall i :: 0 <= i < |ds| ==> r.0[i].attached.Some?
    ensures forall i :: 0 <= i < |ds| && ds[i].attached.Some? ==> r.0[i].attached == ds[i].attached
    ensures forall i :: 0 <= i < |ds| && ds[i].attached.None? ==> next <= r.0[i].attached.value < r.1
    decreases |ds|
  {
    if ds == [] then ([], next)
    else
      var head := if ds[0].attached.Some? then ds[0] else ds[0].(attached := Some(next));
      var rest := AttachMissing(ds[1..], if ds[0].attached.Some? then next else next + 1);
      assert forall i :: 1 <= i < |ds| ==> ([head] + rest.0)[i] == rest.0[i - 1] && ds[i] == ds[1..][i - 1];
      ([head] + rest.0, rest.1)
  }

  function DetachAll(ds: seq<Dropdown>): (r: seq<Dropdown>)
    ensures |r| == |ds|
    ensures forall i :: 0 <= i < |ds| ==> r[i] == ds[i].(attached := None)
  {
    seq(|ds|, i requires 0 <= i < |ds| => ds[i].(attached := None))
  }

  /** The resize handler as written (main.js:277-293): a wide window loses `show` and every chevron. */
  function ResizeAsWritten(m: State, width: int): (r: State)
    ensures r.width == width && |r.dropdowns| == |m.dropdowns| && r.toggle == m.toggle && r.icon == m.icon
    ensures width >= Breakpoint ==> Show !in r.nav && forall i :: 0 <= i < |r.dropdowns| ==> r.dropdowns[i].attached.None?
    ensures width < Breakpoint ==> r.nav == m.nav && forall i :: 0 <= i < |r.dropdowns| ==> r.dropdowns[i].attached.Some?
  {
    if width >= Breakpoint then
      m.(width := width, nav := m.nav - {Show}, dropdowns := DetachAll(m.dropdowns))
    else
      var attached := AttachMissing(m.dropdowns, m.nextSpan);
      m.(width := width, dropdowns := attached.0, nextSpan := attached.1)
  }

  /** The resize handler corrected to close the menu the way an outside click does: toggle inactive, bars icon. */
  function Resize(m: State, width: int): (r: State)
    ensures width >= Breakpoint ==> Show !in r.nav && Active !in r.toggle
    ensures Synced(m) ==> Synced(r)
  {
    if width >= Breakpoint then
      m.(width := width, nav := m.nav - {Show}, toggle := m.toggle - {Active},
         icon := if Show in m.nav then Swap(m.icon, Times, Bars) else m.icon,
         dropdowns := DetachAll(m.dropdowns))
    else
      ResizeAsWritten(m, width)
  }

  // ---------------------------------------------------------------------------------------------
  // The toggle button

  /** The icon shows one of its two glyphs. */
  predicate IconConsistent(icon: set<string>) {
    (Bars in icon) != (Times in icon)
  }

  /** Two clicks on the toggle restore the nav, the button and an icon showing one glyph. */
  lemma ToggleTwice(m: State)
    requires IconConsistent(m.icon)
    ensures ToggleClick(ToggleClick(m)) == m
  {
    var r := ToggleClick(ToggleClick(m));
    assert r.nav == m.nav;
    assert r.toggle == m.toggle;
    assert r.icon == m.icon;
  }

  /** An outside click while the menu is open closes it and shows the bars icon; inside clicks change nothing. */
  lemma OutsideClickCloses(m: State, insideNav: bool, insideToggle: bool)
    ensures var r := DocumentClick(m, insideNav, insideToggle);
      && (!insideNav && !insideToggle && Show in m.nav ==>
            Show !in r.nav && Active !in r.toggle && Bars in r.icon && Times !in r.icon
            && r.nav == m.nav - {Show} && r.dropdowns == m.dropdowns)
      && (insideNav || insideToggle || Show !in m.nav ==> r == m)
  {
  }

  /** The nav, the toggle button and its icon agree on whether the menu is open. */
  predicate Synced(m: State) {
    && (Show in m.nav <==> Active in m.toggle)
    && (Show in m.nav <==> Times in m.icon)
    && (Show in m.nav <==> Bars !in m.icon)
  }

  /** The events the menu reacts to. A click on the toggle also reaches the document handler, inside the toggle. */
  datatype Event = ToggleButtonClick | PageClick(insideNav: bool) | DropdownLinkClick(j: nat) | WindowResize(width: int)

  function Step(m: State, e: Event): State {
    match e
    case ToggleButtonClick => DocumentClick(ToggleClick(m), false, true)
    case PageClick(insideNav) => DocumentClick(m, insideNav, false)
    case DropdownLinkClick(j) => DocumentClick(LinkClick(m, j), true, false)
    case WindowResize(w) => Resize(m, w)
  }

  function StepAsWritten(m: State, e: Event): State {
    match e
    case ToggleButtonClick => DocumentClick(ToggleClick(m), false, true)
    case PageClick(insideNav) => DocumentClick(m, insideNav, false)
    case DropdownLinkClick(j) => DocumentClick(LinkClickAsWritten(m, j), true, false)
    case WindowResize(w) => ResizeAsWritten(m, w)
  }

  function Run(m: State, events: seq<Event>): State
    decreases |events|
  {
    if events == [] then m else Run(Step(m, events[0]), events[1..])
  }

  function RunAsWritten(m: State, events: seq<Event>): State
    decreases |events|
  {
    if events == [] then m else RunAsWritten(StepAsWritten(m, events[0]), events[1..])
  }

  /** With the corrected resize and link handlers, every event keeps the menu in sync. */
  lemma StepKeepsSynced(m: State, e: Event)
    requires Synced(m)
    ensures Synced(Step(m, e))
  {
  }

  /** A resize to the breakpoint or wider, the one event whose handler as written can break the sync. */
  predicate WideResize(e: Event) {
    e.WindowResize? && e.width >= Breakpoint
  }

  /**
    As written, every event keeps the menu in sync except a wide resize while the menu is open, which
    `ResizeLeavesCloseIcon` shows breaking it.
  */
  lemma StepAsWrittenKeepsSynced(m: State, e: Event)
    requires Synced(m)
    requires !(WideResize(e) && Show in m.nav)
    ensures Synced(StepAsWritten(m, e))
  {
  }

  /** As written, a sequence of events with no wide resize keeps the menu in sync. */
  lemma {:induction false} RunAsWrittenKeepsSynced(m: State, events: seq<Event>)
    requires Synced(m)
    requires forall i :: 0 <= i < |events| ==> !WideResize(events[i])
    ensures Synced(RunAsWritten(m, events))
    decreases |events|
  {
    if events != [] {
      StepAsWrittenKeepsSynced(m, events[0]);
      RunAsWrittenKeepsSynced(StepAsWritten(m, events[0]), events[1..]);
    }
  }

  /** With the corrected resize and link handlers, every sequence of events keeps the menu in sync. */
  lemma {:induction false} RunKeepsSynced(m: State, events: seq<Event>)
    requires Synced(m)
    ensures Synced(Run(m, events))
    decreases |events|
  {
    if events != [] {
      StepKeepsSynced(m, events[0]);
      RunKeepsSynced(Step(m, events[0]), events[1..]);
    }
  }

  /** The closed menu a narrow page starts with. */
  function Closed(width: int): State {
    Init({"nav-menu"}, {"mobile-menu-toggle"}, {"fas", Bars}, width, [false])
  }

  /**
    As written, opening the menu and widening the window past the breakpoint closes the nav but leaves
    the close icon; back on a narrow window the next toggle click opens the menu with the bars icon.
  */
  lemma ResizeLeavesCloseIcon()
    ensures var open := RunAsWritten(Closed(800), [ToggleButtonClick, WindowResize(1200), WindowResize(800)]);
      Show !in open.nav && Times in open.icon && Active in open.toggle && !Synced(open)
    ensures var reopened := RunAsWritten(Closed(800), [ToggleButtonClick, WindowResize(1200), WindowResize(800), ToggleButtonClick]);
      Show in reopened.nav && Bars in reopened.icon
  {
    var m0 := Closed(800);
    var m1 := StepAsWritten(m0, ToggleButtonClick);
    assert Show in m1.nav && Times in m1.icon;
    var m2 := StepAsWritten(m1, WindowResize(1200));
    assert Show !in m2.nav && Times in m2.icon;
    var m3 := StepAsWritten(m2, WindowResize(800));
    assert Show !in m3.nav && Times in m3.icon && Active in m3.toggle;
    var m4 := StepAsWritten(m3, ToggleButtonClick);
    assert Show in m4.nav && Bars in m4.icon;
    assert RunAsWritten(m3, [ToggleButtonClick]) == m4;
    assert RunAsWritten(m2, [WindowResize(800)]) == m3;
    assert RunAsWritten(m2, [WindowResize(800), ToggleButtonClick]) == m4;
    assert RunAsWritten(m1, [WindowResize(1200), WindowResize(800)]) == m3;
    assert RunAsWritten(m1, [WindowResize(1200), WindowResize(800), ToggleButtonClick]) == m4;
  }

  // ---------------------------------------------------------------------------------------------
  // Dropdown chevrons

  /** The chevron a user sees on dropdown `j` is turned. */
  predicate ChevronTurned(m: State, j: nat)
    requires j < |m.dropdowns|
  {
    m.dropdowns[j].attached.Some? && m.dropdowns[j].attached.value in m.rotated
  }

  /**
    With the corrected link handler, after a click on a dropdown link of a narrow page its visible chevron
    shows whether it is open.
  */
  lemma LinkClickTurnsVisibleChevron(m: State, j: nat)
    requires m.width < Breakpoint && j < |m.dropdowns|
    requires m.dropdowns[j].attached.Some?
    ensures var r := Step(m, DropdownLinkClick(j));
      && |r.dropdowns| == |m.dropdowns|
      && r.dropdowns[j].active == !m.dropdowns[j].active
      && (ChevronTurned(r, j) <==> r.dropdowns[j].active)
  {
  }

  /**
    As written, once a resize has replaced a dropdown's chevron, clicking the link opens the dropdown but
    turns the detached span the handler captured, so the visible chevron stays unturned.
  */
  lemma ReplacedChevronNeverTurns()
    ensures var m := RunAsWritten(Closed(800), [WindowResize(1200), WindowResize(800), DropdownLinkClick(0)]);
      |m.dropdowns| == 1 && m.dropdowns[0].active && m.dropdowns[0].attached.Some? && !ChevronTurned(m, 0)
  {
    var m0 := Closed(800);
    assert m0.dropdowns == [Dropdown(false, Some(0), 0)];
    var m1 := StepAsWritten(m0, WindowResize(1200));
    assert m1.dropdowns == [Dropdown(false, None, 0)];
    var m2 := StepAsWritten(m1, WindowResize(800));
    assert m2.dropdowns[0].attached == Some(1) && m2.rotated == {};
    var m3 := StepAsWritten(m2, DropdownLinkClick(0));
    assert m3.dropdowns[0].active && m3.rotated == {0};
    var es := [WindowResize(1200), WindowResize(800), DropdownLinkClick(0)];
    assert es[1..][1..][1..] == [];
  }
}

=== FILE: observe.dfy ===
/**
  The IntersectionObserver as the widgets see it. Geometry (threshold, rootMargin) is abstracted to the
  `isIntersecting` flag of each entry. The observer hands its callback a batch of queued entries; it only queues
  entries for targets it watches, and between two callbacks the watched set does not change, so a batch holds
  entries for the targets watched when the callback starts. `unobserve` inside the callback does not remove
  entries already in the batch.
*/
module Observe {

  datatype Entry = Entry(target: nat, isIntersecting: bool)

  /** The part of `batch` the observer can have queued while watching `watched`. */
  function Restrict(batch: seq<Entry>, watched: set<nat>): (r: seq<Entry>)
    ensures |r| <= |batch|
    ensures forall e :: e in r ==> e in batch && e.target in watched
    ensures forall e :: e in batch && e.target in watched ==> e in r
  {
    if batch == [] then []
    else (if batch[0].target in watched then [batch[0]] else []) + Restrict(batch[1..], watched)
  }

  /** The targets `0 .. n - 1`: every element a setup function starts watching. */
  function Below(n: nat): (r: set<nat>)
    ensures forall t: nat :: t in r <==> t < n
  {
    if n == 0 then {} else Below(n - 1) + {n - 1}
  }

  /** Number of intersecting entries for target `t` in `batch`. */
  function Hits(batch: seq<Entry>, t: nat): nat {
    if batch == [] then 0
    else (if batch[0] == Entry(t, true) then 1 else 0) + Hits(batch[1..], t)
  }

  lemma {:induction false} HitsZero(batch: seq<Entry>, t: nat)
    ensures Hits(batch, t) == 0 <==> Entry(t, true) !in batch
  {
    if batch != [] {
      HitsZero(batch[1..], t);
      assert batch == [batch[0]] + batch[1..];
    }
  }

  lemma {:induction false} HitsRestrict(batch: seq<Entry>, watched: set<nat>, t: nat)
    ensures Hits(Restrict(batch, watched), t) == if t in watched then Hits(batch, t) else 0
  {
    if batch != [] {
      HitsRestrict(batch[1..], watched, t);
      var head := if batch[0].target in watched then [batch[0]] else [];
      HitsAppend(head, Restrict(batch[1..], watched), t);
    }
  }

  lemma {:induction false} HitsAppend(a: seq<Entry>, b: seq<Entry>, t: nat)
    ensures Hits(a + b, t) == Hits(a, t) + Hits(b, t)
  {
    if a != [] {
      assert (a + b)[1..] == a[1..] + b;
      HitsAppend(a[1..], b, t);
    } else {
      assert a + b == b;
    }
  }

  // ---------------------------------------------------------------------------------------------
  // Delivering batches to a callback

  /** The callback runs `onEntry` over every entry of its batch, in order. */
  function Callback<P>(onEntry: (P, Entry) -> P, p: P, batch: seq<Entry>): P
    decreases |batch|
  {
    if batch == [] then p else Callback(onEntry, onEntry(p, batch[0]), batch[1..])
  }

  /** One delivery: the batch holds entries only for the targets `watched(p)` when it is delivered. */
  function Deliver<P>(onEntry: (P, Entry) -> P, watched: P -> set<nat>, p: P, batch: seq<Entry>): P {
    Callback(onEntry, p, Restrict(batch, watched(p)))
  }

  /** A sequence of deliveries. */
  function RunAll<P>(onEntry: (P, Entry) -> P, watched: P -> set<nat>, p: P, batches: seq<seq<Entry>>): P
    decreases |batches|
  {
    if batches == [] then p else RunAll(onEntry, watched, Deliver(onEntry, watched, p, batches[0]), batches[1..])
  }
}

=== FILE: reveal.dfy ===
/**
  `initAnimations` of js/main.js: the reveal-once observer over the animated elements, the marking of
  section elements and the section observer.
*/
module Reveal {
  import opened Dom
  import opened Observe

  /** Transition delay step of the section elements: `${index * 0.1}s`. */
  const StepDelayMs: nat := 100

  /** Elements matched by `.animate-fade-in, .animate-slide-up, .animate-slide-in-right` (main.js:43). */
  predicate IsAnimated(cs: set<string>) {
    FadeIn in cs || SlideUp in cs || "animate-slide-in-right" in cs
  }

  /** The classes of the page's elements, and the ones the reveal observer still watches. */
  datatype Page = Page(classes: seq<set<string>>, watched: set<nat>)

  function Watched(p: Page): set<nat> {
    p.watched
  }

  /** The page after setup: exactly the animated elements are watched (main.js:57-60). */
  function Initial(classes: seq<set<string>>): (p: Page)
    ensures p.classes == classes
    ensures forall t: nat :: t in p.watched <==> t < |classes| && IsAnimated(classes[t])
  {
    Page(classes, set t: nat | t < |classes| && IsAnimated(classes[t]))
  }

  /** The callback for one entry (main.js:48-53): an intersecting target gains `active` and is unwatched. */
  function OnEntry(p: Page, e: Entry): (r: Page)
    ensures |r.classes| == |p.classes| && r.watched <= p.watched
    ensures forall i :: 0 <= i < |p.classes| && i != e.target ==> r.classes[i] == p.classes[i]
    ensures e.isIntersecting && e.target < |p.classes| ==>
              r.classes[e.target] == p.classes[e.target] + {Active} && e.target !in r.watched
    ensures !e.isIntersecting ==> r == p
  {
    if e.isIntersecting && e.target < |p.classes| then
      Page(p.classes[e.target := p.classes[e.target] + {Active}], p.watched - {e.target})
    else
      p
  }

  function Batch(p: Page, batch: seq<Entry>): Page {
    Callback(OnEntry, p, batch)
  }

  function Run(p: Page, batches: seq<seq<Entry>>): Page {
    RunAll(OnEntry, Watched, p, batches)
  }

  /** Over one batch, element `t` gains `active` and is unwatched exactly when the batch has a hit for it. */
  lemma {:induction false} BatchEffect(p: Page, batch: seq<Entry>, t: nat)
    requires t < |p.classes|
    ensures var r := Batch(p, batch);
      && |r.classes| == |p.classes|
      && r.classes[t] == (if Hits(batch, t) > 0 then p.classes[t] + {Active} else p.classes[t])
      && (t in r.watched <==> t in p.watched && Hits(batch, t) == 0)
    decreases |batch|
  {
    if batch != [] {
      BatchEffect(OnEntry(p, batch[0]), batch[1..], t);
    }
  }

  /**
    The first delivery with an intersecting entry for a watched element adds `active` to it and unwatches
    it; a delivery without one leaves it alone.
  */
  lemma FirstHit(p: Page, batch: seq<Entry>, t: nat)
    requires t < |p.classes| && t in p.watched
    ensures var r := Deliver(OnEntry, Watched, p, batch);
      && |r.classes| == |p.classes|
      && (Entry(t, true) in batch ==> r.classes[t] == p.classes[t] + {Active} && t !in r.watched)
      && (Entry(t, true) !in batch ==> r.classes[t] == p.classes[t] && t in r.watched)
  {
    HitsRestrict(batch, p.watched, t);
    HitsZero(batch, t);
    BatchEffect(p, Restrict(batch, p.watched), t);
  }

  /** Once an element is unwatched, no later delivery changes it or watches it again. */
  lemma {:induction false} RevealedStays(p: Page, batches: seq<seq<Entry>>, t: nat)
    requires t < |p.classes| && t !in p.watched
    ensures var r := Run(p, batches);
      |r.classes| == |p.classes| && r.classes[t] == p.classes[t] && t !in r.watched
    decreases |batches|
  {
    if batches != [] {
      HitsRestrict(batches[0], p.watched, t);
      BatchEffect(p, Restrict(batches[0], p.watched), t);
      RevealedStays(Deliver(OnEntry, Watched, p, batches[0]), batches[1..], t);
    }
  }

  /**
    Over any run, an element either stays watched and untouched, or is unwatched with `active` added:
    the change happens at most once and `active` is the only class the observer adds.
  */
  lemma {:induction false} RevealAtMostOnce(p: Page, batches: seq<seq<Entry>>, t: nat)
    requires t < |p.classes| && t in p.watched
    ensures var r := Run(p, batches);
      && |r.classes| == |p.classes|
      && (t in r.watched ==> r.classes[t] == p.classes[t])
      && (t !in r.watched ==> r.classes[t] == p.classes[t] + {Active})
    decreases |batches|
  {
    if batches != [] {
      var q := Deliver(OnEntry, Watched, p, batches[0]);
      FirstHit(p, batches[0], t);
      if t in q.watched {
        RevealAtMostOnce(q, batches[1..], t);
      } else {
        RevealedStays(q, batches[1..], t);
      }
    }
  }

  // ---------------------------------------------------------------------------------------------
  // Section elements and the section observer

  /** A section element after marking: its classes and its transition delay in milliseconds. */
  datatype Marked = Marked(classes: set<string>, delayMs: nat)

  /**
    Marking (main.js:63-71): the headings, subtitles, descriptions and grids of one section, in document
    order, each gain `animate-on-scroll` and a transition delay of 100 ms per position.
  */
  function MarkSection(elems: seq<set<string>>): (r: seq<Marked>)
    ensures |r| == |elems|
    ensures forall i :: 0 <= i < |r| ==> OnScroll in r[i].classes && r[i].classes - {OnScroll} == elems[i] - {OnScroll}
    ensures forall i, j :: 0 <= i <= j < |r| ==> r[i].delayMs + (j - i) * StepDelayMs == r[j].delayMs
    ensures |r| > 0 ==> r[0].delayMs == 0
  {
    seq(|elems|, i requires 0 <= i < |elems| => Marked(elems[i] + {OnScroll}, i * StepDelayMs))
  }

  /** The section observer's callback for an intersecting section (main.js:76-81), over its descendants. */
  function SectionHit(descendants: seq<set<string>>): (r: seq<set<string>>)
    ensures |r| == |descendants|
    ensures forall i :: 0 <= i < |r| ==>
              (Visible in r[i] <==> Visible in descendants[i] || OnScroll in descendants[i])
    ensures forall i :: 0 <= i < |r| ==> r[i] - {Visible} == descendants[i] - {Visible}
  {
    seq(|descendants|, i requires 0 <= i < |descendants| =>
      if OnScroll in descendants[i] then descendants[i] + {Visible} else descendants[i])
  }

  /** The section observer never unwatches: `n` intersections of one section in a row. */
  function SectionHits(descendants: seq<set<string>>, n: nat): seq<set<string>>
    decreases n
  {
    if n == 0 then descendants else SectionHits(SectionHit(descendants), n - 1)
  }

  /** Repeated intersections only re-add a class already there: any number of hits acts like one. */
  lemma {:induction false} SectionHitsLikeOne(descendants: seq<set<string>>, n: nat)
    requires n >= 1
    ensures SectionHits(descendants, n) == SectionHit(descendants)
    decreases n
  {
    if n > 1 {
      var once := SectionHit(descendants);
      assert SectionHit(once) == once;
      SectionHitsLikeOne(once, n - 1);
    }
  }
}

=== FILE: stagger.dfy ===
/**
  `initAnimations` of js/animation.js: the reveal-once observer that adds `visible`, schedules a staggered
  reveal of the children of grid containers, and the registration of project-section elements.
*/
module Stagger {
  import opened Dom
  import opened Observe

  /** Delay between the reveals of two consecutive children of a grid: `index * 100` ms. */
  const StaggerMs: nat := 100

  /** An element: its classes and its element children, as indices into the page. */
  datatype Node = Node(classes: set<string>, children: seq<nat>)

  /** A pending `setTimeout` that adds `visible` to a node after `delayMs` milliseconds. */
  datatype Timer = Timer(node: nat, delayMs: nat)

  datatype Page = Page(nodes: seq<Node>, watched: set<nat>, timers: seq<Timer>)

  /** Containers whose children are revealed one after another (animation.js:28-29). */
  predicate IsGrid(cs: set<string>) {
    "tech-highlight-grid" in cs || "project-image-grid" in cs
  }

  /** Elements matched by the project-section selector (animation.js:53-56). */
  predicate IsProjectPart(cs: set<string>) {
    || "project-section" in cs || "project-info-item" in cs || "project-thumb" in cs
    || "main-project-image" in cs || "tech-highlight-item" in cs || "result-item" in cs
  }

  function Watched(p: Page): set<nat> {
    p.watched
  }

  function AddVisible(nodes: seq<Node>, k: nat): (r: seq<Node>)
    ensures |r| == |nodes|
    ensures forall i :: 0 <= i < |r| && i != k ==> r[i] == nodes[i]
    ensures k < |nodes| ==> r[k] == nodes[k].(classes := nodes[k].classes + {Visible})
  {
    if k < |nodes| then nodes[k := nodes[k].(classes := nodes[k].classes + {Visible})] else nodes
  }

  /** One timer per child, the `i`-th after `i * 100` ms (animation.js:30-35). */
  function Schedule(children: seq<nat>): (r: seq<Timer>)
    ensures |r| == |children|
    ensures forall i :: 0 <= i < |r| ==> r[i].node == children[i]
  {
    seq(|children|, i requires 0 <= i < |children| => Timer(children[i], i * StaggerMs))
  }

  /** Children are revealed in document order: the first at once, each next one 100 ms after the previous. */
  lemma StaggerOrder(children: seq<nat>)
    ensures var r := Schedule(children);
      && (|r| > 0 ==> r[0].delayMs == 0)
      && (forall i, j :: 0 <= i <= j < |r| ==> r[i].delayMs + (j - i) * StaggerMs == r[j].delayMs)
      && (forall i, j :: 0 <= i <= j < |r| ==> r[i].delayMs <= r[j].delayMs)
  {
  }

  /** The callback for one entry (animation.js:22-40). */
  function OnEntry(p: Page, e: Entry): (r: Page)
    ensures |r.nodes| == |p.nodes| && r.watched <= p.watched
    ensures |p.timers| <= |r.timers| && r.timers[..|p.timers|] == p.timers
    ensures forall i :: 0 <= i < |p.nodes| && i != e.target ==> r.nodes[i] == p.nodes[i]
    ensures e.isIntersecting && e.target < |p.nodes| ==>
              && Visible in r.nodes[e.target].classes && e.target !in r.watched
              && (IsGrid(p.nodes[e.target].classes) ==> r.timers[|p.timers|..] == Schedule(p.nodes[e.target].children))
    ensures !(e.isIntersecting && e.target < |p.nodes| && IsGrid(p.nodes[e.target].classes)) ==> r.timers == p.timers
    ensures !e.isIntersecting ==> r == p
  {
    if e.isIntersecting && e.target < |p.nodes| then
      var n := p.nodes[e.target];
      var timers := if IsGrid(n.classes) then Schedule(n.children) else [];
      Page(AddVisible(p.nodes, e.target), p.watched - {e.target}, p.timers + timers)
    else
      p
  }

  function Batch(p: Page, batch: seq<Entry>): Page {
    Callback(OnEntry, p, batch)
  }

  function Run(p: Page, batches: seq<seq<Entry>>): Page {
    RunAll(OnEntry, Watched, p, batches)
  }

  /** Every pending timer fires. Adding a class commutes, so the order in which they fire does not matter. */
  function FireAll(nodes: seq<Node>, timers: seq<Timer>): (r: seq<Node>)
    ensures |r| == |nodes|
    ensures forall i :: 0 <= i < |nodes| ==> nodes[i].classes <= r[i].classes && r[i].children == nodes[i].children
    decreases |timers|
  {
    if timers == [] then nodes else FireAll(AddVisible(nodes, timers[0].node), timers[1..])
  }

  /** After the timers fire, a node is visible iff it was, or some timer targeted it; nothing else changes. */
  lemma {:induction false} FireAllEffect(nodes: seq<Node>, timers: seq<Timer>, k: nat)
    requires k < |nodes|
    ensures var r := FireAll(nodes, timers);
      && r[k].children == nodes[k].children
      && r[k].classes - {Visible} == nodes[k].classes - {Visible}
      && (Visible in r[k].classes <==> Visible in nodes[k].classes || exists i :: 0 <= i < |timers| && timers[i].node == k)
    decreases |timers|
  {
    if timers != [] {
      FireAllEffect(AddVisible(nodes, timers[0].node), timers[1..], k);
      if exists i :: 0 <= i < |timers[1..]| && timers[1..][i].node == k {
        var i :| 0 <= i < |timers[1..]| && timers[1..][i].node == k;
        assert timers[i + 1].node == k;
      }
      if exists i :: 0 <= i < |timers| && timers[i].node == k {
        var i :| 0 <= i < |timers| && timers[i].node == k;
        if i > 0 {
          assert timers[1..][i - 1].node == k;
        }
      }
    }
  }

  /** What one batch does: node `t` only gains `visible`, and a hit on a grid schedules all its children. */
  lemma {:induction false} BatchEffect(p: Page, batch: seq<Entry>, t: nat)
    requires t < |p.nodes|
    ensures var r := Batch(p, batch);
      && |r.nodes| == |p.nodes|
      && r.nodes[t].children == p.nodes[t].children
      && r.nodes[t].classes == (if Hits(batch, t) > 0 then p.nodes[t].classes + {Visible} else p.nodes[t].classes)
      && (t in r.watched <==> t in p.watched && Hits(batch, t) == 0)
      && |p.timers| <= |r.timers| && r.timers[..|p.timers|] == p.timers
      && (Hits(batch, t) > 0 && IsGrid(p.nodes[t].classes) ==>
            forall c :: c in p.nodes[t].children ==> exists i :: 0 <= i < |r.timers| && r.timers[i].node == c)
    decreases |batch|
  {
    if batch != [] {
      var q := OnEntry(p, batch[0]);
      BatchEffect(q, batch[1..], t);
      var r := Batch(p, batch);
      assert r == Batch(q, batch[1..]);
      assert q.timers[..|p.timers|] == p.timers;
      if batch[0] == Entry(t, true) && IsGrid(p.nodes[t].classes) {
        var sched := Schedule(p.nodes[t].children);
        assert q.timers == p.timers + sched;
        forall c | c in p.nodes[t].children
          ensures exists i :: 0 <= i < |r.timers| && r.timers[i].node == c
        {
          var j :| 0 <= j < |p.nodes[t].children| && p.nodes[t].children[j] == c;
          assert q.timers[|p.timers| + j].node == c;
          assert r.timers[|p.timers| + j] == q.timers[|p.timers| + j];
        }
      }
    }
  }

  /** `c` is a child of a grid container that `batch` reports intersecting. */
  ghost predicate ChildOfHitGrid(p: Page, batch: seq<Entry>, c: nat) {
    exists u :: 0 <= u < |p.nodes| && Hits(batch, u) > 0 && IsGrid(p.nodes[u].classes) && c in p.nodes[u].children
  }

  /** A batch schedules nothing else: every timer it appends reveals a child of a grid it reports intersecting. */
  lemma {:induction false} BatchTimersFromGrids(p: Page, batch: seq<Entry>)
    ensures var r := Batch(p, batch);
      && |p.timers| <= |r.timers|
      && forall i :: |p.timers| <= i < |r.timers| ==> ChildOfHitGrid(p, batch, r.timers[i].node)
    decreases |batch|
  {
    if batch != [] {
      var q := OnEntry(p, batch[0]);
      BatchTimersFromGrids(q, batch[1..]);
      var r := Batch(p, batch);
      assert r == Batch(q, batch[1..]);
      forall i | |p.timers| <= i < |r.timers|
        ensures ChildOfHitGrid(p, batch, r.timers[i].node)
      {
        var c := r.timers[i].node;
        if i < |q.timers| {
          var e := batch[0];
          assert e.isIntersecting && e.target < |p.nodes| && IsGrid(p.nodes[e.target].classes);
          BatchEffect(q, batch[1..], e.target);
          assert r.timers[i] == q.timers[i];
          assert q.timers[|p.timers|..] == Schedule(p.nodes[e.target].children);
          assert q.timers[i] == Schedule(p.nodes[e.target].children)[i - |p.timers|];
          assert c in p.nodes[e.target].children;
          assert batch[0] == Entry(e.target, true);
          assert Hits(batch, e.target) > 0;
        } else {
          var u :| 0 <= u < |q.nodes| && Hits(batch[1..], u) > 0 && IsGrid(q.nodes[u].classes) && c in q.nodes[u].children;
          assert q.nodes[u].classes - {Visible} == p.nodes[u].classes - {Visible};
          assert IsGrid(p.nodes[u].classes);
          assert Hits(batch, u) > 0;
        }
      }
    }
  }

  /**
    When a watched grid container intersects, it becomes visible at once, is unwatched, and once the
    scheduled timers have fired every child of it is visible.
  */
  lemma GridRevealsChildren(p: Page, batch: seq<Entry>, t: nat)
    requires t < |p.nodes| && t in p.watched
    requires IsGrid(p.nodes[t].classes)
    requires Entry(t, true) in batch
    ensures var r := Deliver(OnEntry, Watched, p, batch);
      && |r.nodes| == |p.nodes|
      && Visible in r.nodes[t].classes && t !in r.watched
      && forall c :: c in p.nodes[t].children && c < |p.nodes| ==> Visible in FireAll(r.nodes, r.timers)[c].classes
  {
    HitsRestrict(batch, p.watched, t);
    HitsZero(batch, t);
    var r := Deliver(OnEntry, Watched, p, batch);
    BatchEffect(p, Restrict(batch, p.watched), t);
    forall c | c in p.nodes[t].children && c < |p.nodes|
      ensures Visible in FireAll(r.nodes, r.timers)[c].classes
    {
      FireAllEffect(r.nodes, r.timers, c);
    }
  }

  /** Once an element is unwatched, no later delivery changes its classes or watches it again. */
  lemma {:induction false} RevealedStays(p: Page, batches: seq<seq<Entry>>, t: nat)
    requires t < |p.nodes| && t !in p.watched
    ensures var r := Run(p, batches);
      |r.nodes| == |p.nodes| && r.nodes[t] == p.nodes[t] && t !in r.watched
    decreases |batches|
  {
    if batches != [] {
      HitsRestrict(batches[0], p.watched, t);
      BatchEffect(p, Restrict(batches[0], p.watched), t);
      RevealedStays(Deliver(OnEntry, Watched, p, batches[0]), batches[1..], t);
    }
  }

  // ---------------------------------------------------------------------------------------------
  // Registration

  predicate NoDuplicates(s: seq<nat>) {
    forall i, j :: 0 <= i < j < |s| ==> s[i] != s[j]
  }

  /**
    Setup (animation.js:47-63): first every `.animate-on-scroll` element is observed, in document order;
    then each project-section element lacking that class gains it and is observed. Returns the classes
    afterwards and the targets passed to `observer.observe`, in call order.
  */
  method Register(classes: seq<set<string>>) returns (marked: seq<set<string>>, observed: seq<nat>)
    ensures |marked| == |classes|
    ensures forall i :: 0 <= i < |classes| ==>
              marked[i] == (if IsProjectPart(classes[i]) then classes[i] + {OnScroll} else classes[i])
    ensures NoDuplicates(observed)
    ensures forall t: nat :: t in observed <==> t < |classes| && (OnScroll in classes[t] || IsProjectPart(classes[t]))
    ensures forall t :: t in observed ==> OnScroll in marked[t]
  {
    observed := [];
    var i := 0;
    while i < |classes|
      invariant 0 <= i <= |classes|
      invariant forall k :: 0 <= k < |observed| ==> observed[k] < i
      invariant NoDuplicates(observed)
      invariant forall t: nat :: t in observed <==> t < i && OnScroll in classes[t]
    {
      if OnScroll in classes[i] {
        observed := observed + [i];
      }
      i := i + 1;
    }
    marked := classes;
    var j := 0;
    while j < |classes|
      invariant 0 <= j <= |classes|
      invariant |marked| == |classes|
      invariant forall k :: 0 <= k < |classes| ==>
                  marked[k] == (if k < j && IsProjectPart(classes[k]) then classes[k] + {OnScroll} else classes[k])
      invariant NoDuplicates(observed)
      invariant forall t: nat :: t in observed <==>
                  t < |classes| && (OnScroll in classes[t] || (t < j && IsProjectPart(classes[t])))
    {
      if IsProjectPart(classes[j]) {
        if OnScroll !in marked[j] {
          marked := marked[j := marked[j] + {OnScroll}];
          observed := observed + [j];
        } else {
          assert classes[j] + {OnScroll} == classes[j];
        }
      }
      j := j + 1;
    }
  }
}

=== FILE: stat_counters.dfy ===
/**
  `initStatCounters` (js/animation.js:69-99): every `.stat-number` element is watched; on an intersecting
  entry its text is recorded in `data-original` unless already recorded, the target is parsed from the
  recorded text, `animateCounter(el, 0, target)` is started and the element is unwatched.
*/
module StatCounters {
  import opened Dom
  import opened Observe
  import Counter

  /**
    One counter: its current text, its `data-original` attribute, and the targets of the animations
    started on it so far, in order.
  */
  datatype Stat = Stat(text: string, original: Option<string>, starts: seq<nat>)

  datatype Page = Page(stats: seq<Stat>, watched: set<nat>)

  /**
    The page after `initStatCounters` has run over counters with the given texts and the given
    `data-original` attributes from the markup: every counter watched, nothing started.
  */
  function Initial(texts: seq<string>, originals: seq<Option<string>>): (p: Page)
    requires |originals| == |texts|
    ensures |p.stats| == |texts|
    ensures forall t :: 0 <= t < |texts| ==> t in p.watched && p.stats[t] == Stat(texts[t], originals[t], [])
  {
    Page(seq(|texts|, i requires 0 <= i < |texts| => Stat(texts[i], originals[i], [])), Below(|texts|))
  }

  /** The text the counter's target is parsed from: the markup's `data-original`, else the text first seen. */
  function Recorded(text: string, original: Option<string>): string {
    if original.Some? then original.value else text
  }

  /**
    The observer callback for one entry (animation.js:77-92). `animateCounter` writes "0" at once for a
    target of 0; otherwise the text changes only on later interval ticks, after the callback has returned.
  */
  function OnEntry(p: Page, e: Entry): (r: Page)
    ensures |r.stats| == |p.stats| && r.watched <= p.watched
    ensures forall i :: 0 <= i < |p.stats| && i != e.target ==> r.stats[i] == p.stats[i]
    ensures e.isIntersecting && e.target < |p.stats| ==>
              var c := p.stats[e.target];
              var original := Recorded(c.text, c.original);
              && e.target !in r.watched
              && r.stats[e.target].original == Some(original)
              && r.stats[e.target].starts == c.starts + [Counter.ParseTarget(original)]
    ensures !e.isIntersecting ==> r == p
  {
    if e.isIntersecting && e.target < |p.stats| then
      var c := p.stats[e.target];
      var original := if c.original.Some? then c.original.value else c.text;
      var target := Counter.ParseTarget(original);
      var text := if target <= 0 then "0" else c.text;
      Page(p.stats[e.target := Stat(text, Some(original), c.starts + [target])], p.watched - {e.target})
    else
      p
  }

  function Watched(p: Page): set<nat> {
    p.watched
  }

  /** The callback over one batch; `unobserve` does not drop the rest of the batch. */
  function Batch(p: Page, batch: seq<Entry>): Page {
    Callback(OnEntry, p, batch)
  }

  function Run(p: Page, batches: seq<seq<Entry>>): Page {
    RunAll(OnEntry, Watched, p, batches)
  }

  /** What the callback does to counter `t` over one batch. */
  lemma {:induction false} CallbackEffect(p: Page, batch: seq<Entry>, t: nat)
    requires t < |p.stats|
    ensures var r := Batch(p, batch);
      && |r.stats| == |p.stats|
      && |r.stats[t].starts| == |p.stats[t].starts| + Hits(batch, t)
      && r.stats[t].starts[..|p.stats[t].starts|] == p.stats[t].starts
      && (t in r.watched <==> t in p.watched && Hits(batch, t) == 0)
      && (Hits(batch, t) == 0 ==> r.stats[t] == p.stats[t])
      && (p.stats[t].original.Some? ==> r.stats[t].original == p.stats[t].original)
      && (Hits(batch, t) > 0 && p.stats[t].original.None? ==> r.stats[t].original == Some(p.stats[t].text))
      && (forall k :: |p.stats[t].starts| <= k < |r.stats[t].starts| ==>
            r.stats[t].starts[k] == Counter.ParseTarget(r.stats[t].original.value))
    decreases |batch|
  {
    if batch != [] {
      var q := OnEntry(p, batch[0]);
      CallbackEffect(q, batch[1..], t);
      var r := Batch(q, batch[1..]);
      assert Batch(p, batch) == r;
      var before := p.stats[t].starts;
      if batch[0] == Entry(t, true) {
        assert Hits(batch, t) == Hits(batch[1..], t) + 1;
        assert q.stats[t].original == Some(Recorded(p.stats[t].text, p.stats[t].original));
        assert q.stats[t].starts == before + [Counter.ParseTarget(q.stats[t].original.value)];
        assert r.stats[t].original == q.stats[t].original;
        assert r.stats[t].starts[..|before|] == r.stats[t].starts[..|q.stats[t].starts|][..|before|];
      } else {
        assert Hits(batch, t) == Hits(batch[1..], t);
        assert q.stats[t] == p.stats[t] && (t in q.watched <==> t in p.watched);
      }
    }
  }

  /**
    What a counter must satisfy between deliveries, for a counter that started with text `text0` and
    `data-original` `original0`: until it starts it is as it was; once started, `data-original` holds the
    recorded text and its one animation runs to the target parsed from it.
  */
  ghost predicate Settled(s: Stat, watchedNow: bool, text0: string, original0: Option<string>) {
    && |s.starts| <= 1
    && (watchedNow ==> s.starts == [])
    && (s.starts == [] ==> s.original == original0 && s.text == text0)
    && (s.starts != [] ==> s.original == Some(Recorded(text0, original0)))
    && (forall k :: 0 <= k < |s.starts| ==> s.starts[k] == Counter.ParseTarget(Recorded(text0, original0)))
  }

  lemma {:induction false} DeliverKeepsSettled(p: Page, batch: seq<Entry>, t: nat,
                                               text0: string, original0: Option<string>)
    requires t < |p.stats|
    requires Settled(p.stats[t], t in p.watched, text0, original0)
    requires Hits(batch, t) <= 1
    ensures var r := Deliver(OnEntry, Watched, p, batch);
      t < |r.stats| && Settled(r.stats[t], t in r.watched, text0, original0)
  {
    var restricted := Restrict(batch, p.watched);
    HitsRestrict(batch, p.watched, t);
    CallbackEffect(p, restricted, t);
  }

  /**
    Started from the page `initStatCounters` leaves, and as long as no batch carries two intersecting
    entries for one counter, every counter starts at most one animation, `data-original` keeps the markup's
    value or else holds the text the counter had at its first intersection, and every animation runs to the
    target parsed from that value.
  */
  lemma {:induction false} AtMostOneStart(texts: seq<string>, originals: seq<Option<string>>,
                                          batches: seq<seq<Entry>>, t: nat)
    requires |originals| == |texts| && t < |texts|
    requires forall b :: b in batches ==> Hits(b, t) <= 1
    ensures var r := Run(Initial(texts, originals), batches);
      t < |r.stats| && Settled(r.stats[t], t in r.watched, texts[t], originals[t])
  {
    RunKeepsSettled(Initial(texts, originals), batches, t, texts[t], originals[t]);
  }

  lemma {:induction false} RunKeepsSettled(p: Page, batches: seq<seq<Entry>>, t: nat,
                                           text0: string, original0: Option<string>)
    requires t < |p.stats|
    requires Settled(p.stats[t], t in p.watched, text0, original0)
    requires forall b :: b in batches ==> Hits(b, t) <= 1
    ensures var r := Run(p, batches);
      t < |r.stats| && Settled(r.stats[t], t in r.watched, text0, original0)
    decreases |batches|
  {
    if batches != [] {
      DeliverKeepsSettled(p, batches[0], t, text0, original0);
      var q := Deliver(OnEntry, Watched, p, batches[0]);
      assert forall b :: b in batches[1..] ==> b in batches;
      RunKeepsSettled(q, batches[1..], t, text0, original0);
    }
  }

  /**
    A batch the observer queued over three frames (in view, out of view, in view again) reaches the callback
    whole, so the second intersecting entry starts a second animation, to the same target.
  */
  lemma RepeatInOneBatchStartsTwice()
    ensures var r := Run(Initial(["250+"], [None]), [[Entry(0, true), Entry(0, false), Entry(0, true)]]);
      |r.stats| == 1 && r.stats[0].starts == [250, 250]
  {
    var p := Initial(["250+"], [None]);
    var batch := [Entry(0, true), Entry(0, false), Entry(0, true)];
    Parse250();
    RestrictAllWatched(batch, p.watched);
    var p1 := OnEntry(p, batch[0]);
    assert p1.stats[0] == Stat("250+", Some("250+"), [250]);
    var p2 := OnEntry(p1, batch[1]);
    var p3 := OnEntry(p2, batch[2]);
    assert p3.stats[0].starts == [250, 250];
    calc {
      Batch(p, batch);
      Callback(OnEntry, p1, batch[1..]);
      Callback(OnEntry, p2, batch[2..]);
      { assert batch[2..][1..] == []; }
      Callback(OnEntry, p3, []);
    }
    calc {
      Run(p, [batch]);
      RunAll(OnEntry, Watched, Deliver(OnEntry, Watched, p, batch), [batch][1..]);
      { assert [batch][1..] == []; }
      Deliver(OnEntry, Watched, p, batch);
      Callback(OnEntry, p, Restrict(batch, p.watched));
      Batch(p, batch);
    }
  }

  lemma Parse250()
    ensures Counter.ParseTarget("250+") == 250
  {
    assert Counter.DigitsOnly("+") == [];
    assert Counter.DigitsOnly("0+") == "0";
    assert Counter.DigitsOnly("50+") == "50";
    assert Counter.DigitsOnly("250+") == "250";
    assert "250"[..2] == "25";
    assert "25"[..1] == "2";
    assert "2"[..0] == "";
  }

  lemma RestrictAllWatched(batch: seq<Entry>, watched: set<nat>)
    requires forall e :: e in batch ==> e.target in watched
    ensures Restrict(batch, watched) == batch
  {
    if batch != [] {
      RestrictAllWatched(batch[1..], watched);
    }
  }
}
